=== FILE: README.md ===
# Space mouse firmware: from knob voltages to a 6-axis HID report

This project models the signal path of the ESP32-S2 space mouse firmware in
Dafny. There are two builds:

- **HID build** (`space_mouse_hid`). It takes eight one-shot ADC channels (four
  two-axis knobs A–D; ADC1 feeds slots 0–3, ADC2 feeds slots 4–7). Each
  channel becomes the truncated mean of N reads. The mean is normalised
  against a centre captured once at start-up into ±250, rounded, and
  filtered by a deadzone of 5. The eight channels are then combined into
  three translations and three rotations, with the four-knob rule for the Z
  axes and the compile-time inversion flags, stored in `int16_t` fields. The
  result is packed little-endian into a HID report while the USB device is
  mounted.
- **Analog build** (`space_mouse_analog`). The same pipeline at ±512, with
  the deadzone, the six inversion flags and the debug level held in run-time
  globals (5; false, false, true, true, false, true; 1). It reads 10 samples
  per cycle and sends no USB report. Because DEBUG is 1, every cycle also
  calls `dbg_prints`, which runs the filter and the mapping a second time.

The modules follow the firmware's structure:

| module | models |
|---|---|
| `CArith` | C integer idioms over unbounded `int`: truncating `/`, `round` of an exact quotient, and the store into `int16_t` |
| `Results` | the error outcomes: a failed ADC read (`ESP_ERROR_CHECK` aborts) and a zero denominator |
| `Sampler` | `readAllFromJoystick` |
| `Normalizer` | `interpolateTo1024` |
| `Deadzone` | `filterDeadZone` |
| `MotionMapper` | `calcRotTrans` |
| `ReportEncoder` | `sendHidReport` and the report layout |
| `AdcState` | the `ADCData` object: its buffers, outputs and member functions, as state transitions parametrised by scale, deadzone and flags |
| `HidBuild` | the HID build's constants and its `app_main` loop |
| `AnalogBuild` | the analog build's globals and its `app_main` loop |

Each operation has a partner it is proved against:

- the averaging method is proved against a reference `Acquire`;
- the as-written `calcRotTrans`, with `int16_t` wrap-around, is proved equal to the exact `Combine` plus `Invert`;
- the byte encoder is proved against a two's-complement decoder, in both directions;
- the `dbg_prints` re-run is proved idempotent.

Facts about the code that shape the model:

- Pan X is `Cy − Ay` (space_mouse_hid/main/adcdata.cpp line 95).
- The positive side divides by `8192 − c` (adcdata.cpp line 67), while readings stop at 8191. So the highest reading can fall short of +scale (`Normalizer.HighestReadingCanFallShort`).
- Nothing clamps a value before it is stored into an `int16_t` output (adcdata.h line 26). The model wraps explicitly (`CArith.Wrap16`) and proves that, with in-range readings, the wrap never changes a value.
- Nothing guards a zero denominator (adcdata.cpp lines 64-67). The model makes it an error (`DivisionByZero`) and proves that in-range readings and centres never produce one.

## Model

| member | source | states |
|---|---|---|
| CArith.TruncDiv | space_mouse_hid/main/adcdata.cpp:44 | C's integer `/`: the quotient's magnitude is the largest multiple of the divisor not above the dividend's magnitude, and its sign is the product of the operands' signs (truncation toward zero) |
| CArith.RoundDiv | space_mouse_hid/main/adcdata.cpp:65-67 | `round(n/d)`: the result is within half a unit of the exact quotient, on the quotient's side of zero, ties away from zero |
| CArith.Wrap16 | space_mouse_hid/main/adcdata.h:26 | storing into an `int16_t` field yields a value in [-32768, 32767] congruent to the input mod 65536, and leaves values already in range unchanged |
| CArith.RoundDivExact | space_mouse_hid/main/adcdata.cpp:65-67 | an exact quotient is returned unchanged by `round` |
| CArith.RoundDivMonotone | space_mouse_hid/main/adcdata.cpp:65-67 | rounding preserves the order of the numerators for a fixed positive divisor |
| CArith.RoundDivBounded | space_mouse_hid/main/adcdata.cpp:65-67 | a quotient within [-k, k] rounds into [-k, k] |
| CArith.MeanBounded | space_mouse_hid/main/adcdata.cpp:43-45 | the truncated mean of n totals each within [0, hi] lies in [0, hi] |
| Sampler.ChannelSumBounds | space_mouse_hid/main/adcdata.cpp:33-41 | with every read in [0, 8191], a slot's total over n sweeps lies in [0, 8191·n] (proved by induction over the sweeps) |
| Sampler.AccumulatorFitsInt32 | space_mouse_hid/main/adcdata.cpp:32-41 | the `int32_t` accumulator cannot overflow for up to 2^18 in-range samples |
| Sampler.AcquireInRange | space_mouse_hid/main/adcdata.cpp:30-46 | averaging in-range reads with no failed read yields eight raw values in [0, 8191] |
| Sampler.AccumulateSweep | space_mouse_hid/main/adcdata.cpp:34-40 | one pass of the inner loop aborts exactly when some read of the sweep fails; otherwise slot i gains ADC1's read i and slot i+4 gains ADC2's read i |
| Sampler.ReadAllFromJoystick | space_mouse_hid/main/adcdata.cpp:30-46 | the loop aborts exactly when some read fails. Otherwise it yields eight values, each the truncated mean of its slot over all sweeps, in [0, 8191] for in-range reads. This equals the reference `Acquire` |
| Normalizer.InterpolateChannel | space_mouse_hid/main/adcdata.cpp:60-68 | a channel fails only by a zero denominator, and a successful channel had a non-zero one |
| Normalizer.InterpolateTo1024 | space_mouse_hid/main/adcdata.cpp:58-71 | the stage succeeds iff every channel does; each slot of the result is its channel's normalised value |
| Normalizer.InterpolateChannelInRange | space_mouse_hid/main/adcdata.cpp:58-71 | for in-range reading and centre, normalisation cannot fail, lies in [-scale, scale], is 0 at the centre and is ≥ 0 above and ≤ 0 below it |
| Normalizer.InterpolateMonotone | space_mouse_hid/main/adcdata.cpp:58-71 | for a fixed centre the normalised value never decreases as the reading grows, across the two differently scaled sides |
| Normalizer.LowestReadingIsFullScale | space_mouse_hid/main/adcdata.cpp:64-65 | reading 0 maps to exactly -scale for any centre ≥ 1 |
| Normalizer.HighestReadingCanFallShort | space_mouse_hid/main/adcdata.cpp:66-67 | with centre 8000, reading 8191 maps to 249, not 250, because the positive side divides by 8192 − c |
| Normalizer.SmallStepRoundsToZero | space_mouse_hid/main/adcdata.cpp:66-67 | a step of one above centre 0 rounds to 0 at scale 250 |
| Normalizer.InterpolateAllInRange | space_mouse_hid/main/adcdata.cpp:58-71 | all eight channels of an in-range reading and calibration normalise without fault into [-scale, scale], with 0 wherever the reading equals its centre |
| Deadzone.FilterValue | space_mouse_hid/main/adcdata.cpp:75-79 | a value of magnitude below the threshold becomes 0; any other value passes through unchanged |
| Deadzone.FilterDeadZone | space_mouse_hid/main/adcdata.cpp:73-81 | slot by slot, magnitudes below the threshold become 0 and all others pass through. So exactly the non-zero values below the threshold change, and every surviving value is 0 or at least the threshold in magnitude |
| Deadzone.FilterIdempotent | space_mouse_hid/main/adcdata.cpp:73-81 | filtering an already filtered vector changes nothing |
| MotionMapper.Stored | space_mouse_hid/main/adcdata.cpp:95-112 | the six fields as stored before inversion all lie in the `int16_t` range |
| MotionMapper.CalcRotTrans | space_mouse_hid/main/adcdata.cpp:83-128 | the six outputs, as written with every store and every `*-1` wrapped, lie in the `int16_t` range |
| MotionMapper.HalfSumWithin | space_mouse_hid/main/adcdata.cpp:107 | halving a sum of four channels within b stays within 2b |
| MotionMapper.StoredExact | space_mouse_hid/main/adcdata.cpp:95-112 | with channels within b (4b ≤ 32767) no store wraps: the stored fields are the exact four-knob combination, each within 4b |
| MotionMapper.InvertStoredExact | space_mouse_hid/main/adcdata.cpp:122-127 | negating an `int16_t` other than -32768 does not wrap |
| MotionMapper.CalcRotTransExact | space_mouse_hid/main/adcdata.cpp:83-128 | with channels within b (4b ≤ 32767), the as-written computation equals the exact combination followed by negation of exactly the flagged axes, and every axis stays within 4b |
| MotionMapper.TransZExclusive | space_mouse_hid/main/adcdata.cpp:97-103 | translation Z is non-zero only if all four X channels exceed the deadzone; when they do, both pan axes are 0 |
| MotionMapper.RotZExclusive | space_mouse_hid/main/adcdata.cpp:106-112 | rotation Z is non-zero only if all four Y channels exceed the deadzone; when they do, both tilt axes are 0 |
| MotionMapper.ThreeOfFourDoesNotFire | space_mouse_hid/main/adcdata.cpp:97-103 | one X channel at or below the deadzone, e.g. a filtered value of exactly 5, keeps translation Z at 0 and leaves the pan pair at its base values |
| MotionMapper.BaseCombinations | space_mouse_hid/main/adcdata.cpp:95-105 | when neither Z rule fires, the outputs are (Cy−Ay, Dy−By, 0, Cx−Ax, Bx−Dx, 0) |
| MotionMapper.TransZIsNegatedSum | space_mouse_hid/main/adcdata.cpp:98 | when the X rule fires, translation Z is minus the sum of the four X channels |
| MotionMapper.RotZTruncatesTowardZero | space_mouse_hid/main/adcdata.cpp:107 | Y channels summing to -7 give rotation Z -3, not -4: the halving truncates toward zero |
| MotionMapper.InversionNegatesFlagged | space_mouse_hid/main/adcdata.cpp:122-127 | the flagged output is the unflagged output with exactly the flagged axes negated |
| MotionMapper.NoInversionIsIdentity | space_mouse_hid/main/adcdata.cpp:122-127 | with no flag set, inversion leaves every axis unchanged |
| MotionMapper.AllZeroInputGivesZero | space_mouse_hid/main/adcdata.cpp:83-128 | knobs at rest produce no motion, whatever the threshold and flags |
| ReportEncoder.Decode16 | space_mouse_hid/main/sm_hid.cpp:95-98 | the host reads each 16-bit field as a value in the logical range [-32768, 32767] |
| ReportEncoder.DecodeLe16 | space_mouse_hid/main/sm_hid.cpp:203-204 | decoding the bytes `v & 0xFF`, `v >> 8` gives v reduced into 16 bits, and v itself for every `int16_t` |
| ReportEncoder.Le16Decode | space_mouse_hid/main/sm_hid.cpp:203-204 | every byte pair is exactly what the encoder writes for the value it decodes to |
| ReportEncoder.SendHidReport | space_mouse_hid/main/sm_hid.cpp:195-208 | the split layout sends report 1 (x, y, z) and report 2 (rx, ry, rz), 6 bytes each. The combined layout sends one 12-byte report 1, translation first. Each field decodes to its argument in 16 bits |
| ReportEncoder.ActiveReportRoundTrip | space_mouse_hid/main/sm_hid.cpp:26-38 | with SM_DEVICE redefined to Enterprise (DEVICE_TYPE 12), a motion is sent as a single 12-byte report 1 that the host decodes back to exactly that motion |
| ReportEncoder.DeviceType | space_mouse_hid/main/sm_hid.cpp:34-38 | DEVICE_TYPE is 66 (split layout) for the Pro and Wireless devices and 12 (combined layout) for Enterprise |
| ReportEncoder.ActiveDeviceIsCombined | space_mouse_hid/main/sm_hid.cpp:21-38 | SM_DEVICE is defined twice, and the later Enterprise definition selects the 12-byte combined layout |
| ReportEncoder.SendMotion | space_mouse_hid/main/sm_hid.cpp:285 | the call passes rotations first and translations last, so the combined report carries (transX, transY, transZ, rotX, rotY, rotZ) in that order. In the split layout report 1 carries the translations and report 2 the rotations, each field as its 16-bit value |
| ReportEncoder.SplitReportRoundTrip | space_mouse_hid/main/sm_hid.cpp:196-201 | in the split layout, report 1 decodes to the translation and report 2 to the rotation, although the call passes rotations first |
| AdcState.Construct | space_mouse_hid/main/adcdata.cpp:20-27 | the constructor zeroes all four eight-slot buffers |
| AdcState.ReadAll | space_mouse_hid/main/adcdata.cpp:30-46 | the read fails exactly when some ADC read fails. Otherwise rawReads becomes the truncated per-slot means of the sweeps (`Acquire`), in range when the reads are, and nothing else changes |
| AdcState.InitCenterPoints | space_mouse_hid/main/adcdata.cpp:48-53 | calibration fails exactly on a failed read. Otherwise the centre points are the 100-sample means, also left in rawReads, and nothing else changes |
| AdcState.Interpolate | space_mouse_hid/main/adcdata.cpp:58-71 | only centered changes. Each slot is its channel's normalised value; with in-range buffers the step cannot fail, stays within ±scale and is 0 at the centre |
| AdcState.Filter | space_mouse_hid/main/adcdata.cpp:73-81 | only centeredDZ changes. A slot is 0 iff centered is 0 or below the threshold, and otherwise equals centered |
| AdcState.Calc | space_mouse_hid/main/adcdata.cpp:83-128 | only the six outputs change, and they lie in the `int16_t` range; with every filtered channel within 8191 they are exactly the four-knob combination of centeredDZ with the flagged axes negated |
| AdcState.DbgPrints | space_mouse_hid/main/adcdata.cpp:163-200 | `dbg_prints` without logging leaves the readings, calibration and normalised values alone. It recomputes centeredDZ by the deadzone rule, and with normalised channels within 8191 the outputs are exactly the four-knob combination of the filtered values with the flagged axes negated |
| AdcState.RerunIsIdempotent | space_mouse_hid/main/adcdata.cpp:163-200 | running filter and mapping again from the state they produced changes nothing, so no axis is inverted twice |
| HidBuild.InterpolateTo1024 | space_mouse_hid/main/adcdata.cpp:65-67 | at half-range 250 each slot is its channel's value `round(d·250/den)`. In-range buffers normalise without fault into ±250, with 0 at the centre |
| HidBuild.FilterDeadZone | space_mouse_hid/main/const.h:5 | with DEADZONE 5, magnitudes 0..4 become 0 and magnitudes ≥ 5 pass through unchanged |
| HidBuild.CalcRotTrans | space_mouse_hid/main/const.h:22-32 | with channels within ±250, exactly translation Z, rotation X and rotation Z come out negated relative to the combination, and every axis is within ±1000 |
| HidBuild.Process | space_mouse_hid/main/sm_hid.cpp:278-280 | normalise, filter and map keep the calibration and fail exactly when the reference pipeline does. With in-range buffers the result cannot fail, the motion equals the reference pipeline's (`AdcState.ExpectedMotion`: normalise, filter, exact combination, inversion), and every axis is within ±1000 |
| HidBuild.MountedCycle | space_mouse_hid/main/sm_hid.cpp:272-286 | a mounted cycle sends one 12-byte report 1 that decodes to the motion just computed. With in-range data it fails exactly when a read fails, and the report decodes to the reference motion of this cycle's averaged reads against the calibration |
| HidBuild.Cycle | space_mouse_hid/main/sm_hid.cpp:269-288 | while the device is not mounted a cycle changes nothing and sends nothing; a mounted cycle sends exactly one report when it succeeds, and with in-range data it fails exactly when one of its reads fails |
| HidBuild.Loop | space_mouse_hid/main/sm_hid.cpp:269-288 | the calibration is never overwritten. At most one report per mounted cycle is sent, and exactly one when the run does not stop early. With in-range centre points and reads, the run stops early exactly when some mounted cycle has a failed read |
| HidBuild.AppMain | space_mouse_hid/main/sm_hid.cpp:210-288 | a failed calibration read aborts before any report; otherwise the loop runs on the 100-sample centre points and sends one report per mounted cycle, all of them unless a cycle faults, never more. With in-range reads the run stops early exactly when the calibration or some mounted cycle has a failed read |
| HidBuild.UnmountedLoopIsSilent | space_mouse_hid/main/sm_hid.cpp:269-288 | while the device stays unmounted, the loop sends nothing and leaves the state exactly as it was |
| AnalogBuild.InterpolateTo1024 | space_mouse_analog/main/space_mouse_main.cpp:150-163 | at half-range 512 each slot is its channel's value `round(d·512/den)`. In-range buffers normalise without fault into ±512, with 0 at the centre |
| AnalogBuild.FilterDeadZone | space_mouse_analog/main/space_mouse_main.cpp:165-173 | magnitudes below the run-time DEADZONE become 0; the others pass through unchanged |
| AnalogBuild.CalcRotTrans | space_mouse_analog/main/space_mouse_main.cpp:175-220 | with channels within ±512, the outputs are the exact combination with exactly the globally flagged axes negated, each within ±2048 |
| AnalogBuild.DbgPrints | space_mouse_analog/main/space_mouse_main.cpp:253-290 | the debug routine keeps the readings, calibration and normalised values. It refilters centeredDZ against the DEADZONE global. With channels within ±512, the outputs become the exact combination of the filtered values with the flagged axes negated |
| AnalogBuild.Cycle | space_mouse_analog/main/space_mouse_main.cpp:317-335 | a 10-sample cycle keeps the calibration. With in-range data it fails exactly when a read fails, its outputs equal the reference motion of this cycle's averaged reads under the globals, debug re-run included, and every axis is within ±2048 |
| AnalogBuild.DbgPrintsChangesNothing | space_mouse_analog/main/space_mouse_main.cpp:253-290 | the second filter-and-map pass inside `dbg_prints` reproduces the state it started from |
| AnalogBuild.DebugLevelIsInvisible | space_mouse_analog/main/space_mouse_main.cpp:327-329 | a cycle computes the same state whatever the debug level |
| AnalogBuild.Loop | space_mouse_analog/main/space_mouse_main.cpp:317-335 | the calibration captured before the loop is never overwritten, and with in-range centre points and reads the run stops early exactly when some cycle has a failed read |
| AnalogBuild.AppMain | space_mouse_analog/main/space_mouse_main.cpp:306-339 | a failed calibration read aborts; otherwise the loop runs on the 100-sample centre points. With in-range reads the run stops early exactly when the calibration or some cycle has a failed read |
| AnalogBuild.PushNormalises | space_mouse_analog/main/space_mouse_main.cpp:150-163 | centres at 4096 and X readings at 6144 normalise to 256 on each X channel and 0 on each Y channel |
| AnalogBuild.PushIsTranslationZ | space_mouse_analog/main/space_mouse_main.cpp:189-219 | that push fires the four-knob rule: translation Z is −1024, flipped to 1024 by invZ, and every other axis is 0 |
| AnalogBuild.PushedChannels | space_mouse_analog/main/space_mouse_main.cpp:156-160 | the per-channel normalisation of the push |
| AnalogBuild.PushedSurvivesDeadzone | space_mouse_analog/main/space_mouse_main.cpp:165-173 | the pushed values all clear the deadzone |
| AnalogBuild.PushedMotion | space_mouse_analog/main/space_mouse_main.cpp:189-195 | the mapping of the push under the default globals |

## Left out

- ADC set-up and tear-down (`adc_init`, `adc_done`, the pin-to-channel table) are left out. They only configure the driver; the reads become inputs (`Sweep`), and a failed read becomes `AdcReadFault`.
- The TinyUSB descriptors, string tables and HID callbacks are left out. They are static data and logging; the report ids 1 and 2 sent by `sendHidReport` are modelled.
- `tud_mounted()` becomes an input of each cycle. `tud_hid_report` is the returned list of reports.
- Logging (`ESP_LOGI` in `dbg_prints` and the callbacks), `vTaskDelay`, `esp_timer_early_init` and the commented-out speed scaling and timing code have no effect on the computed values.
- Floating point in `round(d*250.0/c)` is computed on exact rationals. The numerator is an integer below 2^22, and a non-tie quotient is at least 1/16384 from a half. So the double quotient rounds the same way.
- Integer overflow in the firmware's 32-bit `int` expressions is not modelled. With in-range readings every intermediate is within ±2^23, so none can overflow. The `int16_t` stores are modelled (`CArith.Wrap16`).
- The uninitialised `int16_t` outputs after construction become a parameter (`outputs`).
- The `while (1)` loops are modelled over a finite sequence of cycles. A run stops early on the first failed read (an `ESP_ERROR_CHECK` abort) or on a zero denominator.
- A zero denominator in `interpolateTo1024` stops the modelled loop. The firmware does not stop: it converts an infinite or NaN `round` result to `int`, which is undefined behaviour, and sends the report anyway. The model does not predict what that undefined conversion yields. A zero denominator needs a reading or a centre outside [0, 8191], which the converter cannot produce; `Normalizer.InterpolateAllInRange` proves in-range values never give one.
- HidBuild.Loop: states the report count and that the calibration is preserved, not the contents of each report. Each report's contents are stated per cycle by `HidBuild.MountedCycle`. When the run stops early is stated only for in-range centre points and reads, the only values the converter produces; otherwise a zero denominator can also stop it.
- Normalizer.InterpolateChannelInRange: the sign of the result only weakly follows `r − c` (≥ 0 above, ≤ 0 below), because a small step can round to 0 (`Normalizer.SmallStepRoundsToZero`).
- Normalizer.InterpolateChannel: its own contract states only the fault case. The value's range, sign and monotonicity are stated by the lemmas after it.
- Sampler.AccumulatorFitsInt32: the bound is proved for up to 2^18 samples, far above the 5, 10 and 100 the firmware takes.
- MotionMapper.Stored and MotionMapper.CalcRotTrans: their own contracts state only the `int16_t` range. Exactness is stated by `MotionMapper.StoredExact` and `MotionMapper.CalcRotTransExact`.
- The HID build's `dbg_prints` is not called, because its DEBUG is 0 (`const.h` line 1). It is the same code as the analog build's and is covered by `AdcState.RerunIsIdempotent`.

=== FILE: adc_state.dfy ===
/** The ADCData object shared by both builds: its four channel buffers and
    six outputs, and its member functions as state transitions. The builds
    differ only in the scale, the deadzone and the inversion flags they pass. */
module AdcState {
  import opened CArith
  import opened Results
  import opened Sampler
  import opened Normalizer
  import opened Deadzone
  import opened MotionMapper

  datatype AdcData = AdcData(
    rawReads: seq<int>,
    centerPoints: seq<int>,
    centered: seq<int>,
    centeredDZ: seq<int>,
    motion: Motion)

  predicate Valid(s: AdcData) {
    |s.rawReads| == ChannelCount && |s.centerPoints| == ChannelCount &&
    |s.centered| == ChannelCount && |s.centeredDZ| == ChannelCount
  }

  /** The constructor zeroes the four buffers; it does not initialise the six
      outputs, so they are whatever `outputs` says until calcRotTrans runs. */
  function Construct(outputs: Motion): (s: AdcData)
    ensures Valid(s)
    ensures forall i :: 0 <= i < ChannelCount ==>
              s.rawReads[i] == 0 && s.centerPoints[i] == 0 && s.centered[i] == 0 && s.centeredDZ[i] == 0
  {
    var zeros := [0, 0, 0, 0, 0, 0, 0, 0];
    AdcData(zeros, zeros, zeros, zeros, outputs)
  }

  /** readAllFromJoystick: the averaged reads replace rawReads; nothing else changes. */
  function ReadAll(s: AdcData, sweeps: seq<Sweep>): (r: Result<AdcData>)
    requires Valid(s) && |sweeps| >= 1 && AllWellFormed(sweeps)
    ensures r.Err? <==> AnyFault(sweeps)
    ensures r.Ok? ==> Valid(r.value)
    ensures r.Ok? ==> r.value.rawReads == Acquire(sweeps).value
    ensures r.Ok? ==> r.value.centerPoints == s.centerPoints && r.value.centered == s.centered &&
                      r.value.centeredDZ == s.centeredDZ && r.value.motion == s.motion
    ensures r.Ok? && ReadsInRange(sweeps) ==> AllInAdcRange(r.value.rawReads)
  {
    match Acquire(sweeps)
    case Err(e) => Err(e)
    case Ok(raw) =>
      if ReadsInRange(sweeps) then (AcquireInRange(sweeps); Ok(s.(rawReads := raw)))
      else Ok(s.(rawReads := raw))
  }

  /** initCenterPoints: a 100-sweep acquisition whose result is copied
      verbatim into the centre points (and, as a side effect of the read,
      left in rawReads). The two other buffers and the outputs are untouched. */
  function InitCenterPoints(s: AdcData, sweeps: seq<Sweep>): (r: Result<AdcData>)
    requires Valid(s) && |sweeps| == 100 && AllWellFormed(sweeps)
    ensures r.Err? <==> AnyFault(sweeps)
    ensures r.Ok? ==> Valid(r.value)
    ensures r.Ok? ==> r.value.centerPoints == Acquire(sweeps).value && r.value.rawReads == r.value.centerPoints
    ensures r.Ok? ==> r.value.centered == s.centered && r.value.centeredDZ == s.centeredDZ && r.value.motion == s.motion
    ensures r.Ok? && ReadsInRange(sweeps) ==> AllInAdcRange(r.value.centerPoints)
  {
    match ReadAll(s, sweeps)
    case Err(e) => Err(e)
    case Ok(s1) => Ok(s1.(centerPoints := s1.rawReads))
  }

  /** interpolateTo1024 at a given half-range: centered is replaced; with
      in-range buffers it cannot fault, stays in [-scale, scale] and is 0
      wherever the reading equals its centre. */
  function Interpolate(s: AdcData, scale: int): (r: Result<AdcData>)
    requires Valid(s)
    ensures r.Ok? ==> Valid(r.value)
    ensures r.Ok? ==> r.value.rawReads == s.rawReads && r.value.centerPoints == s.centerPoints &&
                      r.value.centeredDZ == s.centeredDZ && r.value.motion == s.motion
    ensures r.Ok? ==> forall i :: 0 <= i < ChannelCount ==>
              InterpolateChannel(s.rawReads[i], s.centerPoints[i], scale) == Ok(r.value.centered[i])
    ensures scale > 0 && AllInAdcRange(s.rawReads) && AllInAdcRange(s.centerPoints) ==>
              r.Ok? && ChannelsWithin(r.value.centered, scale) &&
              forall i :: 0 <= i < ChannelCount && s.rawReads[i] == s.centerPoints[i] ==> r.value.centered[i] == 0
  {
    var r := match InterpolateTo1024(s.rawReads, s.centerPoints, scale)
      case Err(e) => Err(e)
      case Ok(c) => Ok(s.(centered := c));
    if scale > 0 && AllInAdcRange(s.rawReads) && AllInAdcRange(s.centerPoints) then
      (InterpolateAllInRange(s.rawReads, s.centerPoints, scale); r)
    else r
  }

  /** filterDeadZone: centeredDZ is recomputed from centered alone. */
  function Filter(s: AdcData, threshold: int): (r: AdcData)
    requires Valid(s)
    ensures Valid(r)
    ensures r.rawReads == s.rawReads && r.centerPoints == s.centerPoints &&
            r.centered == s.centered && r.motion == s.motion
    ensures forall i :: 0 <= i < ChannelCount ==>
              (r.centeredDZ[i] == 0 <==> s.centered[i] == 0 || Abs(s.centered[i]) < threshold)
    ensures forall i :: 0 <= i < ChannelCount ==> r.centeredDZ[i] == 0 || r.centeredDZ[i] == s.centered[i]
  {
    s.(centeredDZ := FilterDeadZone(s.centered, threshold))
  }

  /** calcRotTrans: the six outputs are recomputed from centeredDZ alone;
      with every filtered channel within 8191 (four of them sum to at most
      32764) no field wraps, and the outputs are the exact combination with
      the flagged axes negated. */
  function Calc(s: AdcData, threshold: int, inv: Inversion): (r: AdcData)
    requires Valid(s)
    ensures Valid(r)
    ensures r.rawReads == s.rawReads && r.centerPoints == s.centerPoints &&
            r.centered == s.centered && r.centeredDZ == s.centeredDZ
    ensures MotionInInt16(r.motion)
    ensures ChannelsWithin(s.centeredDZ, 8191) ==> r.motion == Invert(Combine(s.centeredDZ, threshold), inv)
  {
    var r := s.(motion := CalcRotTrans(s.centeredDZ, threshold, inv));
    if ChannelsWithin(s.centeredDZ, 8191) then
      (CalcRotTransExact(s.centeredDZ, threshold, inv, 8191); r)
    else r
  }

  /** dbg_prints without its logging: filterDeadZone, then calcRotTrans. The
      readings, calibration and normalised values are only read; centeredDZ
      is the filtered centered again, and the outputs are recomputed from it. */
  function DbgPrints(s: AdcData, threshold: int, inv: Inversion): (r: AdcData)
    requires Valid(s)
    ensures Valid(r)
    ensures r.rawReads == s.rawReads && r.centerPoints == s.centerPoints && r.centered == s.centered
    ensures forall i :: 0 <= i < ChannelCount ==> (Abs(s.centered[i]) < threshold ==> r.centeredDZ[i] == 0)
    ensures forall i :: 0 <= i < ChannelCount ==> (Abs(s.centered[i]) >= threshold ==> r.centeredDZ[i] == s.centered[i])
    ensures MotionInInt16(r.motion)
    ensures ChannelsWithin(s.centered, 8191) ==>
              r.motion == Invert(Combine(Deadzone.FilterDeadZone(s.centered, threshold), threshold), inv)
  {
    var f := Filter(s, threshold);
    assert ChannelsWithin(s.centered, 8191) ==> ChannelsWithin(f.centeredDZ, 8191);
    Calc(f, threshold, inv)
  }

  /** Reference for one processing pass, from the averaged readings and the
      centre points to the six axes: normalise every channel, filter, combine
      exactly (no 16-bit store) and negate the flagged axes. */
  function ExpectedMotion(raw: seq<int>, centre: seq<int>, scale: int, threshold: int, inv: Inversion): Result<Motion>
    requires |raw| == ChannelCount && |centre| == ChannelCount
  {
    match Normalizer.InterpolateTo1024(raw, centre, scale)
    case Err(e) => Err(e)
    case Ok(c) => Ok(Invert(Combine(Deadzone.FilterDeadZone(c, threshold), threshold), inv))
  }

  /** Running filter and mapping a second time from the state they left
      changes nothing: the filter reads only centered and the mapping
      overwrites its outputs from centeredDZ, so no axis is inverted twice. */
  lemma RerunIsIdempotent(s: AdcData, threshold: int, inv: Inversion)
    requires Valid(s)
    ensures DbgPrints(DbgPrints(s, threshold, inv), threshold, inv) == DbgPrints(s, threshold, inv)
  {
  }
}

=== FILE: analog_build.dfy ===
/** The analog build (space_mouse_analog): half-range 512, with the deadzone,
    the inversion flags and the debug level held in mutable globals, and a
    main loop with no USB output that re-runs the filter and the mapping
    inside dbg_prints whenever debugging is on. */
module AnalogBuild {
  import opened CArith
  import opened Results
  import opened Sampler
  import opened Normalizer
  import opened Deadzone
  import opened MotionMapper
  import opened AdcState

  /** The globals the stages read: DEBUG, DEADZONE and invX..invRZ. Nothing
      in the program writes them after start-up. */
  datatype Globals = Globals(debug: int, deadzone: int, inv: Inversion)

  /** Their initial values. */
  const Defaults: Globals := Globals(1, 5, Inversion(false, false, true, true, false, true))

  const Scale: int := 512
  /** Reads per channel in each cycle of the main loop. */
  const CycleSamples: int := 10

  /** interpolateTo1024 at half-range 512. */
  function InterpolateTo1024(s: AdcData): (r: Result<AdcData>)
    requires Valid(s)
    ensures r.Ok? ==> Valid(r.value) && r.value.centerPoints == s.centerPoints
    ensures r.Ok? ==> forall i :: 0 <= i < ChannelCount ==>
              InterpolateChannel(s.rawReads[i], s.centerPoints[i], Scale) == Ok(r.value.centered[i])
    ensures AllInAdcRange(s.rawReads) && AllInAdcRange(s.centerPoints) ==>
              r.Ok? && ChannelsWithin(r.value.centered, 512) &&
              forall i :: 0 <= i < ChannelCount && s.rawReads[i] == s.centerPoints[i] ==> r.value.centered[i] == 0
  {
    Interpolate(s, Scale)
  }

  /** filterDeadZone against the DEADZONE global: exactly the values with
      magnitude below it become 0. */
  function FilterDeadZone(s: AdcData, g: Globals): (r: AdcData)
    requires Valid(s)
    ensures Valid(r) && r.centered == s.centered && r.centerPoints == s.centerPoints
    ensures forall i :: 0 <= i < ChannelCount ==> (Abs(s.centered[i]) < g.deadzone ==> r.centeredDZ[i] == 0)
    ensures forall i :: 0 <= i < ChannelCount ==> (Abs(s.centered[i]) >= g.deadzone ==> r.centeredDZ[i] == s.centered[i])
    ensures ChannelsWithin(s.centered, 512) ==> ChannelsWithin(r.centeredDZ, 512)
  {
    Filter(s, g.deadzone)
  }

  /** calcRotTrans against the DEADZONE and inv* globals: each axis is negated
      exactly when its flag is set; with channels within 512 every output is
      within 2048, so no `int16_t` field wraps. */
  function CalcRotTrans(s: AdcData, g: Globals): (r: AdcData)
    requires Valid(s)
    ensures Valid(r) && r.centerPoints == s.centerPoints && r.centeredDZ == s.centeredDZ
    ensures ChannelsWithin(s.centeredDZ, 512) ==>
              r.motion == Invert(Combine(s.centeredDZ, g.deadzone), g.inv) &&
              MotionWithin(r.motion, 2048)
  {
    var r := Calc(s, g.deadzone, g.inv);
    if ChannelsWithin(s.centeredDZ, 512) then
      (CalcRotTransExact(s.centeredDZ, g.deadzone, g.inv, 512); r)
    else r
  }

  /** dbg_prints with its logging left out: filterDeadZone, then calcRotTrans. */
  function DbgPrints(s: AdcData, g: Globals): (r: AdcData)
    requires Valid(s)
    ensures Valid(r) && r.centerPoints == s.centerPoints && r.centered == s.centered
    ensures forall i :: 0 <= i < ChannelCount ==> (Abs(s.centered[i]) < g.deadzone ==> r.centeredDZ[i] == 0)
    ensures forall i :: 0 <= i < ChannelCount ==> (Abs(s.centered[i]) >= g.deadzone ==> r.centeredDZ[i] == s.centered[i])
    ensures ChannelsWithin(s.centered, 512) ==>
              r.motion == Invert(Combine(Deadzone.FilterDeadZone(s.centered, g.deadzone), g.deadzone), g.inv)
  {
    CalcRotTrans(FilterDeadZone(s, g), g)
  }

  /** One iteration of the main loop: read 10 sweeps, normalise, filter, map,
      and call dbg_prints when DEBUG > 0. */
  function Cycle(s: AdcData, g: Globals, sweeps: seq<Sweep>): (r: Result<AdcData>)
    requires Valid(s) && |sweeps| == CycleSamples && AllWellFormed(sweeps)
    ensures r.Ok? ==> Valid(r.value) && r.value.centerPoints == s.centerPoints
    ensures AllInAdcRange(s.centerPoints) && ReadsInRange(sweeps) ==>
              (r.Ok? <==> !AnyFault(sweeps)) &&
              (r.Ok? ==> MotionWithin(r.value.motion, 2048))
    // the outputs are the motion of this cycle's averaged reads
    ensures AllInAdcRange(s.centerPoints) && ReadsInRange(sweeps) && r.Ok? ==>
              ExpectedMotion(Acquire(sweeps).value, s.centerPoints, Scale, g.deadzone, g.inv).Ok? &&
              r.value.motion == ExpectedMotion(Acquire(sweeps).value, s.centerPoints, Scale, g.deadzone, g.inv).value
  {
    match ReadAll(s, sweeps)
    case Err(e) => Err(e)
    case Ok(s1) =>
      match InterpolateTo1024(s1)
      case Err(e) => Err(e)
      case Ok(s2) =>
        var s4 := CalcRotTrans(FilterDeadZone(s2, g), g);
        Ok(if g.debug > 0 then (DbgPrintsChangesNothing(s2, g); DbgPrints(s4, g)) else s4)
  }

  /** dbg_prints re-runs filterDeadZone and calcRotTrans after the loop has
      already run them: centeredDZ and all six outputs come out unchanged. */
  lemma DbgPrintsChangesNothing(s: AdcData, g: Globals)
    requires Valid(s)
    ensures DbgPrints(DbgPrints(s, g), g) == DbgPrints(s, g)
  {
    RerunIsIdempotent(s, g.deadzone, g.inv);
  }

  /** So the debug level never changes what a cycle computes. */
  lemma DebugLevelIsInvisible(s: AdcData, g: Globals, sweeps: seq<Sweep>)
    requires Valid(s) && |sweeps| == CycleSamples && AllWellFormed(sweeps)
    ensures Cycle(s, g, sweeps) == Cycle(s, g.(debug := 0), sweeps)
  {
    if ReadAll(s, sweeps).Ok? && InterpolateTo1024(ReadAll(s, sweeps).value).Ok? {
      DbgPrintsChangesNothing(InterpolateTo1024(ReadAll(s, sweeps).value).value, g);
    }
  }

  /** The observable result of running the loop: whether the run stopped
      early (a failed read, or a zero denominator, which in-range reads rule
      out), and the last state reached. */
  datatype Trace = Trace(aborted: bool, last: AdcData)

  /** Every cycle's reads are ones the converter can produce. */
  predicate CyclesInRange(cycles: seq<seq<Sweep>>) {
    forall i :: 0 <= i < |cycles| && AllWellFormed(cycles[i]) ==> ReadsInRange(cycles[i])
  }

  /** Some cycle has a failed read. */
  predicate CycleFault(cycles: seq<seq<Sweep>>) {
    exists i :: 0 <= i < |cycles| && AllWellFormed(cycles[i]) && AnyFault(cycles[i])
  }

  /** The cycle predicates split into the first cycle and the rest. */
  lemma {:induction false} CyclesSplit(cycles: seq<seq<Sweep>>)
    requires |cycles| > 0
    ensures CyclesInRange(cycles) <==>
              (AllWellFormed(cycles[0]) ==> ReadsInRange(cycles[0])) && CyclesInRange(cycles[1..])
    ensures CycleFault(cycles) <==>
              (AllWellFormed(cycles[0]) && AnyFault(cycles[0])) || CycleFault(cycles[1..])
  {
    if CycleFault(cycles) {
      var i :| 0 <= i < |cycles| && AllWellFormed(cycles[i]) && AnyFault(cycles[i]);
      if i > 0 { assert cycles[1..][i - 1] == cycles[i]; }
    }
    if CycleFault(cycles[1..]) {
      var j :| 0 <= j < |cycles[1..]| && AllWellFormed(cycles[1..][j]) && AnyFault(cycles[1..][j]);
      assert cycles[j + 1] == cycles[1..][j];
    }
    if (AllWellFormed(cycles[0]) ==> ReadsInRange(cycles[0])) && CyclesInRange(cycles[1..]) {
      forall i | 0 <= i < |cycles| && AllWellFormed(cycles[i]) ensures ReadsInRange(cycles[i]) {
        if i > 0 { assert cycles[1..][i - 1] == cycles[i]; }
      }
    }
  }

  /** The main loop over a finite prefix of its cycles; the centre points
      captured before it are never written. */
  function Loop(s: AdcData, g: Globals, cycles: seq<seq<Sweep>>): (t: Trace)
    requires Valid(s)
    requires forall i :: 0 <= i < |cycles| ==> |cycles[i]| == CycleSamples && AllWellFormed(cycles[i])
    ensures Valid(t.last) && t.last.centerPoints == s.centerPoints
    // with in-range data the run stops early exactly when some cycle has a failed read
    ensures AllInAdcRange(s.centerPoints) && CyclesInRange(cycles) ==> (t.aborted <==> CycleFault(cycles))
    decreases |cycles|
  {
    if |cycles| == 0 then Trace(false, s)
    else
      CyclesSplit(cycles);
      match Cycle(s, g, cycles[0])
      case Err(_) => Trace(true, s)
      case Ok(s1) => Loop(s1, g, cycles[1..])
  }

  /** app_main after ADC set-up: calibrate once from 100 sweeps, then loop. */
  function AppMain(outputs: Motion, g: Globals, calibration: seq<Sweep>, cycles: seq<seq<Sweep>>): (t: Trace)
    requires |calibration| == 100 && AllWellFormed(calibration)
    requires forall i :: 0 <= i < |cycles| ==> |cycles[i]| == CycleSamples && AllWellFormed(cycles[i])
    ensures AnyFault(calibration) ==> t.aborted
    ensures !AnyFault(calibration) ==> t.last.centerPoints == Acquire(calibration).value
    ensures ReadsInRange(calibration) && CyclesInRange(cycles) ==>
              (t.aborted <==> AnyFault(calibration) || CycleFault(cycles))
  {
    match InitCenterPoints(Construct(outputs), calibration)
    case Err(_) => Trace(true, Construct(outputs))
    case Ok(s) => Loop(s, g, cycles)
  }

  /** A push on the cap: every centre at 4096 and the four X channels at 6144. */
  const PushCentre: seq<int> := [4096, 4096, 4096, 4096, 4096, 4096, 4096, 4096]
  const PushRaw: seq<int> := [6144, 4096, 6144, 4096, 6144, 4096, 6144, 4096]
  /** Each X channel normalises to 2048 * 512 / 4096 = 256. */
  const Pushed: seq<int> := [256, 0, 256, 0, 256, 0, 256, 0]

  /** The state just before the push is processed: the averaged reads and
      the centre points in place, the other buffers still zero as the
      constructor left them. */
  function PushState(outputs: Motion): (s: AdcData)
    ensures Valid(s)
  {
    var zeros := [0, 0, 0, 0, 0, 0, 0, 0];
    AdcData(PushRaw, PushCentre, zeros, zeros, outputs)
  }

  /** The push normalises to 256 on each X channel and 0 on each Y channel. */
  lemma {:induction false} PushNormalises(outputs: Motion)
    ensures InterpolateTo1024(PushState(outputs)) == Ok(PushState(outputs).(centered := Pushed))
  {
    PushedChannels();
  }

  /** The push: all four X channels exceed the deadzone, so translation Z is
      -(4 * 256) = -1024 before inversion and 1024 after invZ, while the pan
      pair and every rotation are 0. */
  lemma {:induction false} PushIsTranslationZ(outputs: Motion)
    ensures CalcRotTrans(FilterDeadZone(PushState(outputs).(centered := Pushed), Defaults), Defaults).motion ==
              Motion(0, 0, 1024, 0, 0, 0)
  {
    PushedSurvivesDeadzone();
    PushedMotion();
  }

  /** The normalisation step of the push. */
  lemma PushedChannels()
    ensures Normalizer.InterpolateTo1024(PushRaw, PushCentre, Scale) == Ok(Pushed)
  {
    RoundDivExact(256, 4096);
    RoundDivExact(0, 4096);
    assert InterpolateChannel(6144, 4096, Scale) == Ok(256);
    assert InterpolateChannel(4096, 4096, Scale) == Ok(0);
    forall i | 0 <= i < ChannelCount
      ensures InterpolateChannel(PushRaw[i], PushCentre[i], Scale) == Ok(Pushed[i])
    {
      assert PushRaw[i] == (if i % 2 == 0 then 6144 else 4096) && PushCentre[i] == 4096;
    }
    var res := Normalizer.InterpolateTo1024(PushRaw, PushCentre, Scale);
    assert res.Ok?;
    assert res.value == Pushed;
  }

  /** The deadzone step of the push: nothing is filtered. */
  lemma PushedSurvivesDeadzone()
    ensures Deadzone.FilterDeadZone(Pushed, Defaults.deadzone) == Pushed
  {
  }

  /** The mapping step of the push. */
  lemma PushedMotion()
    ensures MotionMapper.CalcRotTrans(Pushed, Defaults.deadzone, Defaults.inv) == Motion(0, 0, 1024, 0, 0, 0)
  {
    CalcRotTransExact(Pushed, Defaults.deadzone, Defaults.inv, 512);
  }
}

=== FILE: c_arith.dfy ===
/** C integer and floating-point idioms the firmware relies on, stated over
    Dafny's unbounded integers: division that truncates toward zero,
    `round` of an exact quotient, and the implicit conversion into `int16_t`. */
module CArith {

  const Int16Min: int := -32768
  const Int16Max: int := 32767
  const Int32Max: int := 2147483647

  predicate InInt16(x: int) {
    Int16Min <= x <= Int16Max
  }

  function Abs(x: int): (r: nat)
    ensures r == x || r == -x
  {
    if x < 0 then -x else x
  }

  /** C's `/` on `int`: the quotient is truncated toward zero, so the
      remainder takes the sign of the dividend. */
  function TruncDiv(n: int, d: int): (q: int)
    requires d != 0
    ensures Abs(q) * Abs(d) <= Abs(n) < Abs(q) * Abs(d) + Abs(d)
    ensures q != 0 ==> ((q > 0) <==> ((n > 0) == (d > 0)))
  {
    var a := Abs(n);
    var b := Abs(d);
    var m := a / b;
    DivBracket(a, b);
    var q := if (n < 0) == (d < 0) then m else -m;
    assert Abs(q) == m;
    q
  }

  /** `round(n / d)` computed exactly on the rationals: the nearest integer,
      with a tie going away from zero, as C's `round` does. */
  function RoundDiv(n: int, d: int): (r: int)
    requires d != 0
    ensures 2 * Abs(r) * Abs(d) - Abs(d) <= 2 * Abs(n) < 2 * Abs(r) * Abs(d) + Abs(d)
    ensures r != 0 ==> ((r > 0) <==> ((n > 0) == (d > 0)))
  {
    var a := Abs(n);
    var b := Abs(d);
    var q := (2 * a + b) / (2 * b);
    HalfUpBracket(a, b);
    var r := if (n < 0) == (d < 0) then q else -q;
    assert Abs(r) == q;
    r
  }

  /** Floor division of a non-negative dividend brackets it between two
      consecutive multiples of the divisor. */
  lemma DivBracket(a: int, b: int)
    requires a >= 0 && b > 0
    ensures 0 <= a / b
    ensures (a / b) * b <= a < (a / b) * b + b
  {
  }

  /** Adding half the divisor before flooring rounds a non-negative quotient
      to the nearest integer, a tie going up. */
  lemma HalfUpBracket(a: int, b: int)
    requires a >= 0 && b > 0
    ensures 0 <= (2 * a + b) / (2 * b)
    ensures 2 * ((2 * a + b) / (2 * b)) * b - b <= 2 * a < 2 * ((2 * a + b) / (2 * b)) * b + b
    ensures a == 0 ==> (2 * a + b) / (2 * b) == 0
  {
    var q := (2 * a + b) / (2 * b);
    DivBracket(2 * a + b, 2 * b);
    assert q * (2 * b) == 2 * q * b;
  }

  /** The value an `int` takes once stored into an `int16_t`: reduced
      modulo 2^16 into [-32768, 32767]. */
  function Wrap16(x: int): (r: int)
    ensures InInt16(r)
    ensures (r - x) % 65536 == 0
    ensures InInt16(x) ==> r == x
  {
    (x + 32768) % 65536 - 32768
  }

  lemma MulMonotone(x: int, y: int, d: int)
    requires x <= y && d > 0
    ensures x * d <= y * d
  {
  }

  /** Floor division undoes a multiplication plus a remainder smaller than the divisor. */
  lemma DivOfMultiple(q: int, b: int, rem: int)
    requires b > 0 && 0 <= rem < b
    ensures (q * b + rem) / b == q
  {
    var a := q * b + rem;
    var k := a / b;
    assert a == k * b + a % b;
    if k < q {
      MulMonotone(k + 1, q, b);
      assert false;
    } else if k > q {
      MulMonotone(q + 1, k, b);
      assert false;
    }
  }

  /** The rounding bracket with the signs put back, for a positive denominator. */
  lemma {:induction false} RoundDivBracket(n: int, d: int)
    requires d > 0
    ensures 2 * RoundDiv(n, d) * d - d <= 2 * n <= 2 * RoundDiv(n, d) * d + d
  {
    if n >= 0 {
      HalfUpBracket(n, d);
    } else {
      var q := (2 * -n + d) / (2 * d);
      HalfUpBracket(-n, d);
      assert RoundDiv(n, d) == -q;
      assert 2 * (-q) * d == -(2 * q * d);
    }
  }

  lemma HalfUpExact(m: int, d: int)
    requires m >= 0 && d > 0
    ensures m * d >= 0
    ensures (2 * (m * d) + d) / (2 * d) == m
  {
    MulMonotone(0, m, d);
    assert 2 * (m * d) + d == m * (2 * d) + d;
    DivOfMultiple(m, 2 * d, d);
  }

  /** A numerator that is an exact multiple of the denominator rounds to that multiple. */
  lemma {:induction false} RoundDivExact(k: int, d: int)
    requires d > 0
    ensures RoundDiv(k * d, d) == k
  {
    var m := if k >= 0 then k else -k;
    HalfUpExact(m, d);
    assert Abs(k * d) == m * d;
  }

  /** Two rounding brackets for the same positive denominator cannot cross. */
  lemma BracketsOrdered(n1: int, n2: int, r1: int, r2: int, d: int)
    requires d > 0 && n1 < n2
    requires 2 * r1 * d - d <= 2 * n1
    requires 2 * n2 <= 2 * r2 * d + d
    ensures r1 <= r2
  {
    if r1 > r2 {
      MulMonotone(r2 + 1, r1, d);
    }
  }

  /** Rounding a quotient with a fixed positive denominator is monotone in the numerator. */
  lemma {:induction false} RoundDivMonotone(n1: int, n2: int, d: int)
    requires d > 0 && n1 <= n2
    ensures RoundDiv(n1, d) <= RoundDiv(n2, d)
  {
    if n1 < n2 {
      RoundDivBracket(n1, d);
      RoundDivBracket(n2, d);
      BracketsOrdered(n1, n2, RoundDiv(n1, d), RoundDiv(n2, d), d);
    }
  }

  /** A numerator within k denominators of zero rounds into [-k, k]. */
  lemma {:induction false} RoundDivBounded(n: int, d: int, k: int)
    requires d > 0 && k >= 0 && -(k * d) <= n <= k * d
    ensures -k <= RoundDiv(n, d) <= k
  {
    RoundDivExact(k, d);
    RoundDivExact(-k, d);
    assert -k * d == -(k * d);
    RoundDivMonotone(n, k * d, d);
    RoundDivMonotone(-k * d, n, d);
  }

  /** The truncated mean of a non-negative total of n readings, each at most hi,
      is itself in [0, hi]. */
  lemma MeanBounded(total: int, n: int, hi: int)
    requires n >= 1 && 0 <= total <= hi * n
    ensures 0 <= TruncDiv(total, n) <= hi
  {
    var q := TruncDiv(total, n);
    assert q * n <= total;
    if q > hi {
      MulMonotone(hi + 1, q, n);
    }
  }
}

=== FILE: deadzone.dfy ===
/** filterDeadZone: normalised values whose magnitude is strictly below the
    threshold become 0; all others pass through unchanged. */
module Deadzone {
  import opened CArith

  function FilterValue(v: int, threshold: int): (r: int)
    ensures Abs(v) < threshold ==> r == 0
    ensures Abs(v) >= threshold ==> r == v
  {
    if Abs(v) < threshold then 0 else v
  }

  function FilterDeadZone(centered: seq<int>, threshold: int): (r: seq<int>)
    ensures |r| == |centered|
    // below the threshold in magnitude becomes 0, everything else passes through
    ensures forall i :: 0 <= i < |r| ==> (Abs(centered[i]) < threshold ==> r[i] == 0)
    ensures forall i :: 0 <= i < |r| ==> (Abs(centered[i]) >= threshold ==> r[i] == centered[i])
    // exactly the small non-zero values are changed
    ensures forall i :: 0 <= i < |r| ==> (r[i] != centered[i] <==> centered[i] != 0 && Abs(centered[i]) < threshold)
    // what survives is either 0 or at least the threshold in magnitude
    ensures forall i :: 0 <= i < |r| ==> r[i] == 0 || Abs(r[i]) >= threshold
  {
    seq(|centered|, i requires 0 <= i < |centered| => FilterValue(centered[i], threshold))
  }

  /** Filtering an already filtered vector changes nothing. */
  lemma FilterIdempotent(centered: seq<int>, threshold: int)
    ensures FilterDeadZone(FilterDeadZone(centered, threshold), threshold) == FilterDeadZone(centered, threshold)
  {
    var once := FilterDeadZone(centered, threshold);
    var twice := FilterDeadZone(once, threshold);
    forall i | 0 <= i < |once|
      ensures twice[i] == once[i]
    {
      assert once[i] == 0 || Abs(once[i]) >= threshold;
    }
  }
}

=== FILE: hid_build.dfy ===
/** The HID build (space_mouse_hid): half-range 250, DEADZONE 5, inversion
    fixed at compile time, and a main loop that samples, maps and sends a
    report only while the USB device is mounted. */
module HidBuild {
  import opened CArith
  import opened Results
  import opened Sampler
  import opened Normalizer
  import opened Deadzone
  import opened MotionMapper
  import opened ReportEncoder
  import opened AdcState

  const DEBUG: int := 0
  const DEADZONE: int := 5
  const Scale: int := 250
  const INVX: bool := false
  const INVY: bool := false
  const INVZ: bool := true
  const INVRX: bool := true
  const INVRY: bool := false
  const INVRZ: bool := true
  const Flags: Inversion := Inversion(INVX, INVY, INVZ, INVRX, INVRY, INVRZ)
  /** Reads per channel in each cycle of the main loop. */
  const CycleSamples: int := 5

  /** interpolateTo1024 at half-range 250. */
  function InterpolateTo1024(s: AdcData): (r: Result<AdcData>)
    requires Valid(s)
    ensures r.Ok? ==> Valid(r.value) && r.value.centerPoints == s.centerPoints
    ensures r.Ok? ==> forall i :: 0 <= i < ChannelCount ==>
              InterpolateChannel(s.rawReads[i], s.centerPoints[i], Scale) == Ok(r.value.centered[i])
    ensures AllInAdcRange(s.rawReads) && AllInAdcRange(s.centerPoints) ==>
              r.Ok? && ChannelsWithin(r.value.centered, 250) &&
              forall i :: 0 <= i < ChannelCount && s.rawReads[i] == s.centerPoints[i] ==> r.value.centered[i] == 0
  {
    Interpolate(s, Scale)
  }

  /** filterDeadZone with DEADZONE 5: magnitudes 0..4 become 0, and a value
      of exactly 5 or -5 is kept. */
  function FilterDeadZone(s: AdcData): (r: AdcData)
    requires Valid(s)
    ensures Valid(r) && r.centered == s.centered && r.centerPoints == s.centerPoints
    ensures forall i :: 0 <= i < ChannelCount ==> (Abs(s.centered[i]) < 5 ==> r.centeredDZ[i] == 0)
    ensures forall i :: 0 <= i < ChannelCount ==> (Abs(s.centered[i]) >= 5 ==> r.centeredDZ[i] == s.centered[i])
    ensures ChannelsWithin(s.centered, 250) ==> ChannelsWithin(r.centeredDZ, 250)
  {
    Filter(s, DEADZONE)
  }

  /** calcRotTrans with the compile-time flags: exactly translation Z,
      rotation X and rotation Z are negated; with channels within 250 every
      output is within 1000, so no `int16_t` field wraps. */
  function CalcRotTrans(s: AdcData): (r: AdcData)
    requires Valid(s)
    ensures Valid(r) && r.centerPoints == s.centerPoints && r.centeredDZ == s.centeredDZ
    ensures ChannelsWithin(s.centeredDZ, 250) ==>
              var c := Combine(s.centeredDZ, DEADZONE);
              r.motion == Motion(c.transX, c.transY, -c.transZ, -c.rotX, c.rotY, -c.rotZ) &&
              MotionWithin(r.motion, 1000)
  {
    var r := Calc(s, DEADZONE, Flags);
    if ChannelsWithin(s.centeredDZ, 250) then
      (CalcRotTransExact(s.centeredDZ, DEADZONE, Flags, 250); r)
    else r
  }

  /** One pass of the main loop's body. */
  datatype CycleInput = CycleInput(mounted: bool, sweeps: seq<Sweep>)

  /** What a cycle leaves behind: the object's state and the reports handed
      to the transport. */
  datatype Step = Step(state: AdcData, sent: seq<HidReport>)

  predicate CycleInputOk(c: CycleInput) {
    c.mounted ==> |c.sweeps| == CycleSamples && AllWellFormed(c.sweeps)
  }

  /** interpolateTo1024, filterDeadZone, calcRotTrans in sequence. (DEBUG is
      0, so dbg_prints is never called in this build.) */
  function Process(s: AdcData): (r: Result<AdcData>)
    requires Valid(s)
    ensures r.Ok? ==> Valid(r.value) && r.value.centerPoints == s.centerPoints && MotionInInt16(r.value.motion)
    ensures r.Ok? <==> ExpectedMotion(s.rawReads, s.centerPoints, Scale, DEADZONE, Flags).Ok?
    ensures AllInAdcRange(s.rawReads) && AllInAdcRange(s.centerPoints) ==>
              r.Ok? && r.value.motion == ExpectedMotion(s.rawReads, s.centerPoints, Scale, DEADZONE, Flags).value &&
              MotionWithin(r.value.motion, 1000)
  {
    match InterpolateTo1024(s)
    case Err(e) => Err(e)
    case Ok(s2) =>
      Ok(CalcRotTrans(FilterDeadZone(s2)))
  }

  /** The mounted branch: read 5 sweeps, normalise, filter, map, send. */
  function MountedCycle(s: AdcData, sweeps: seq<Sweep>): (r: Result<Step>)
    requires Valid(s) && |sweeps| == CycleSamples && AllWellFormed(sweeps)
    ensures r.Ok? ==> Valid(r.value.state) && r.value.state.centerPoints == s.centerPoints
    ensures r.Ok? ==> |r.value.sent| == 1 && r.value.sent[0].id == 1 && |r.value.sent[0].data| == 12
    ensures r.Ok? ==> DecodeCombined(r.value.sent[0].data) == r.value.state.motion
    ensures AllInAdcRange(s.centerPoints) && ReadsInRange(sweeps) ==>
              (r.Ok? <==> !AnyFault(sweeps)) &&
              (r.Ok? ==> MotionWithin(r.value.state.motion, 1000))
    // the report carries the motion of this cycle's averaged reads
    ensures AllInAdcRange(s.centerPoints) && ReadsInRange(sweeps) && r.Ok? ==>
              ExpectedMotion(Acquire(sweeps).value, s.centerPoints, Scale, DEADZONE, Flags).Ok? &&
              DecodeCombined(r.value.sent[0].data) ==
              ExpectedMotion(Acquire(sweeps).value, s.centerPoints, Scale, DEADZONE, Flags).value
  {
    match ReadAll(s, sweeps)
    case Err(e) => Err(e)
    case Ok(s1) =>
      match Process(s1)
      case Err(e) => Err(e)
      case Ok(s4) =>
        ActiveReportRoundTrip(s4.motion);
        Ok(Step(s4, SendMotion(ActiveDevice, s4.motion)))
  }

  /** One iteration of the main loop: nothing happens while the device is
      not mounted. */
  function Cycle(s: AdcData, c: CycleInput): (r: Result<Step>)
    requires Valid(s) && CycleInputOk(c)
    ensures !c.mounted ==> r == Ok(Step(s, []))
    ensures r.Ok? ==> Valid(r.value.state) && r.value.state.centerPoints == s.centerPoints
    ensures r.Ok? && c.mounted ==> |r.value.sent| == 1
    // with in-range data a mounted cycle fails exactly on a failed read
    ensures c.mounted && AllInAdcRange(s.centerPoints) && ReadsInRange(c.sweeps) ==>
              (r.Ok? <==> !AnyFault(c.sweeps))
  {
    if c.mounted then MountedCycle(s, c.sweeps) else Ok(Step(s, []))
  }

  function MountedCount(cycles: seq<CycleInput>): nat {
    if |cycles| == 0 then 0 else (if cycles[0].mounted then 1 else 0) + MountedCount(cycles[1..])
  }

  /** Every mounted cycle's reads are ones the converter can produce. */
  predicate MountedReadsInRange(cycles: seq<CycleInput>) {
    forall i :: 0 <= i < |cycles| && cycles[i].mounted && CycleInputOk(cycles[i]) ==> ReadsInRange(cycles[i].sweeps)
  }

  /** Some mounted cycle has a failed read. */
  predicate MountedFault(cycles: seq<CycleInput>) {
    exists i :: 0 <= i < |cycles| && cycles[i].mounted && CycleInputOk(cycles[i]) && AnyFault(cycles[i].sweeps)
  }

  /** The mounted-cycle predicates split into the first cycle and the rest. */
  lemma {:induction false} MountedSplit(cycles: seq<CycleInput>)
    requires |cycles| > 0
    ensures MountedReadsInRange(cycles) <==>
              (cycles[0].mounted && CycleInputOk(cycles[0]) ==> ReadsInRange(cycles[0].sweeps)) &&
              MountedReadsInRange(cycles[1..])
    ensures MountedFault(cycles) <==>
              (cycles[0].mounted && CycleInputOk(cycles[0]) && AnyFault(cycles[0].sweeps)) ||
              MountedFault(cycles[1..])
  {
    if MountedFault(cycles) {
      var i :| 0 <= i < |cycles| && cycles[i].mounted && CycleInputOk(cycles[i]) && AnyFault(cycles[i].sweeps);
      if i > 0 { assert cycles[1..][i - 1] == cycles[i]; }
    }
    if MountedFault(cycles[1..]) {
      var j :| 0 <= j < |cycles[1..]| && cycles[1..][j].mounted && CycleInputOk(cycles[1..][j]) &&
               AnyFault(cycles[1..][j].sweeps);
      assert cycles[j + 1] == cycles[1..][j];
    }
    if (cycles[0].mounted && CycleInputOk(cycles[0]) ==> ReadsInRange(cycles[0].sweeps)) &&
       MountedReadsInRange(cycles[1..]) {
      forall i | 0 <= i < |cycles| && cycles[i].mounted && CycleInputOk(cycles[i])
        ensures ReadsInRange(cycles[i].sweeps)
      {
        if i > 0 { assert cycles[1..][i - 1] == cycles[i]; }
      }
    }
  }

  /** The observable result of running the loop over a finite prefix of its
      cycles: the reports sent, whether the run stopped early (a failed read,
      or a zero denominator, which in-range reads rule out), and the last
      state reached. */
  datatype Trace = Trace(sent: seq<HidReport>, aborted: bool, last: AdcData)

  /** The main loop over the given cycles. The centre points are never
      written; one report is sent per mounted cycle, none per unmounted one. */
  function Loop(s: AdcData, cycles: seq<CycleInput>): (t: Trace)
    requires Valid(s) && forall i :: 0 <= i < |cycles| ==> CycleInputOk(cycles[i])
    ensures Valid(t.last) && t.last.centerPoints == s.centerPoints
    ensures |t.sent| <= MountedCount(cycles)
    ensures !t.aborted ==> |t.sent| == MountedCount(cycles)
    // with in-range data the run stops early exactly when some mounted cycle has a failed read
    ensures AllInAdcRange(s.centerPoints) && MountedReadsInRange(cycles) ==>
              (t.aborted <==> MountedFault(cycles))
    decreases |cycles|
  {
    if |cycles| == 0 then Trace([], false, s)
    else
      MountedSplit(cycles);
      match Cycle(s, cycles[0])
      case Err(_) => Trace([], true, s)
      case Ok(step) =>
        var rest := Loop(step.state, cycles[1..]);
        Trace(step.sent + rest.sent, rest.aborted, rest.last)
  }

  /** app_main after ADC and USB set-up: calibrate once from 100 sweeps, then
      run the loop. `outputs` stands for the uninitialised outputs. */
  function AppMain(outputs: Motion, calibration: seq<Sweep>, cycles: seq<CycleInput>): (t: Trace)
    requires |calibration| == 100 && AllWellFormed(calibration)
    requires forall i :: 0 <= i < |cycles| ==> CycleInputOk(cycles[i])
    ensures AnyFault(calibration) ==> t.aborted && t.sent == []
    ensures !AnyFault(calibration) ==> t.last.centerPoints == Acquire(calibration).value
    // after a good calibration, one report per mounted cycle until a fault stops the run
    ensures !AnyFault(calibration) ==>
              |t.sent| <= MountedCount(cycles) && (!t.aborted ==> |t.sent| == MountedCount(cycles))
    ensures ReadsInRange(calibration) && MountedReadsInRange(cycles) ==>
              (t.aborted <==> AnyFault(calibration) || MountedFault(cycles))
  {
    match InitCenterPoints(Construct(outputs), calibration)
    case Err(_) => Trace([], true, Construct(outputs))
    case Ok(s) => Loop(s, cycles)
  }

  /** While the device stays unmounted the loop sends nothing and leaves the
      state, calibration included, exactly as it was. */
  lemma {:induction false} UnmountedLoopIsSilent(s: AdcData, cycles: seq<CycleInput>)
    requires Valid(s) && forall i :: 0 <= i < |cycles| ==> CycleInputOk(cycles[i]) && !cycles[i].mounted
    ensures Loop(s, cycles) == Trace([], false, s)
    decreases |cycles|
  {
    if |cycles| > 0 {
      UnmountedLoopIsSilent(s, cycles[1..]);
    }
  }
}

=== FILE: motion.dfy ===
/** calcRotTrans: the eight deadzone-filtered knob channels combined into
    three translations and three rotations, with the four-knob rule for the
    Z axes and the per-axis inversion flags. */
module MotionMapper {
  import opened CArith

  /** Channel slots, in pin order: knob A, B, C, D, each X then Y. */
  const AX: int := 0
  const AY: int := 1
  const BX: int := 2
  const BY: int := 3
  const CX: int := 4
  const CY: int := 5
  const DX: int := 6
  const DY: int := 7

  /** The six `int16_t` outputs. */
  datatype Motion = Motion(transX: int, transY: int, transZ: int, rotX: int, rotY: int, rotZ: int)

  /** One flag per output axis; a set flag negates that axis. */
  datatype Inversion = Inversion(invX: bool, invY: bool, invZ: bool, invRX: bool, invRY: bool, invRZ: bool)

  const NoInversion: Inversion := Inversion(false, false, false, false, false, false)

  predicate MotionInInt16(m: Motion) {
    InInt16(m.transX) && InInt16(m.transY) && InInt16(m.transZ) &&
    InInt16(m.rotX) && InInt16(m.rotY) && InInt16(m.rotZ)
  }

  /** Every axis has magnitude at most b. */
  predicate MotionWithin(m: Motion, b: int) {
    Abs(m.transX) <= b && Abs(m.transY) <= b && Abs(m.transZ) <= b &&
    Abs(m.rotX) <= b && Abs(m.rotY) <= b && Abs(m.rotZ) <= b
  }

  predicate ChannelsWithin(f: seq<int>, b: int) {
    forall i :: 0 <= i < |f| ==> -b <= f[i] <= b
  }

  /** All four X channels move by strictly more than the threshold: a push or
      pull on all knobs at once, read as translation along Z. */
  predicate TransZFires(f: seq<int>, threshold: int)
    requires |f| == 8
  {
    Abs(f[AX]) > threshold && Abs(f[BX]) > threshold && Abs(f[CX]) > threshold && Abs(f[DX]) > threshold
  }

  /** All four Y channels move by strictly more than the threshold: a twist,
      read as rotation about Z. */
  predicate RotZFires(f: seq<int>, threshold: int)
    requires |f| == 8
  {
    Abs(f[AY]) > threshold && Abs(f[BY]) > threshold && Abs(f[CY]) > threshold && Abs(f[DY]) > threshold
  }

  /** Reference for the combination, in exact arithmetic and before inversion:
      pan from the Y channels of opposite knobs, tilt from the X channels, and
      a firing Z gesture suppressing the pan (or tilt) pair. */
  function Combine(f: seq<int>, threshold: int): Motion
    requires |f| == 8
  {
    var tz := TransZFires(f, threshold);
    var rz := RotZFires(f, threshold);
    Motion(
      if tz then 0 else f[CY] - f[AY],
      if tz then 0 else f[DY] - f[BY],
      if tz then -(f[AX] + f[BX] + f[CX] + f[DX]) else 0,
      if rz then 0 else f[CX] - f[AX],
      if rz then 0 else f[BX] - f[DX],
      if rz then TruncDiv(f[AY] + f[BY] + f[CY] + f[DY], 2) else 0)
  }

  function Negate(v: int, flag: bool): int {
    if flag then -v else v
  }

  /** Reference for the inversion stage: each flagged axis negated. */
  function Invert(m: Motion, inv: Inversion): Motion {
    Motion(Negate(m.transX, inv.invX), Negate(m.transY, inv.invY), Negate(m.transZ, inv.invZ),
           Negate(m.rotX, inv.invRX), Negate(m.rotY, inv.invRY), Negate(m.rotZ, inv.invRZ))
  }

  /** Inversion as the firmware does it: `v = v * -1` on an `int16_t`. */
  function InvertStored(v: int, flag: bool): int {
    if flag then Wrap16(v * -1) else v
  }

  /** The six `int16_t` fields as calcRotTrans leaves them before its
      inversion step: every expression is evaluated in `int` and stored into
      an `int16_t` field (Wrap16); the `/1` divisors are the identity and the
      `/2` of rotation Z truncates toward zero. */
  function Stored(f: seq<int>, threshold: int): (m: Motion)
    requires |f| == 8
    ensures MotionInInt16(m)
  {
    var transX0 := Wrap16(-(-f[CY] + f[AY]));
    var transY0 := Wrap16(-f[BY] + f[DY]);
    var fireT := TransZFires(f, threshold);
    var transZ := if fireT then Wrap16(-f[AX] - f[BX] - f[CX] - f[DX]) else 0;
    var transX := if fireT then 0 else transX0;
    var transY := if fireT then 0 else transY0;
    var rotX0 := Wrap16(-f[AX] + f[CX]);
    var rotY0 := Wrap16(f[BX] - f[DX]);
    var fireR := RotZFires(f, threshold);
    var rotZ := if fireR then Wrap16(TruncDiv(f[AY] + f[BY] + f[CY] + f[DY], 2)) else 0;
    var rotX := if fireR then 0 else rotX0;
    var rotY := if fireR then 0 else rotY0;
    Motion(transX, transY, transZ, rotX, rotY, rotZ)
  }

  /** calcRotTrans as written: the stored fields, then each flagged field
      multiplied by -1 and stored back. */
  function CalcRotTrans(f: seq<int>, threshold: int, inv: Inversion): (m: Motion)
    requires |f| == 8
    ensures MotionInInt16(m)
  {
    var s := Stored(f, threshold);
    Motion(InvertStored(s.transX, inv.invX), InvertStored(s.transY, inv.invY), InvertStored(s.transZ, inv.invZ),
           InvertStored(s.rotX, inv.invRX), InvertStored(s.rotY, inv.invRY), InvertStored(s.rotZ, inv.invRZ))
  }

  /** Halving a sum of four channels within b stays within 2b. */
  lemma HalfSumWithin(f: seq<int>, b: int)
    requires |f| == 8 && 0 <= b && ChannelsWithin(f, b)
    ensures -2 * b <= TruncDiv(f[AY] + f[BY] + f[CY] + f[DY], 2) <= 2 * b
  {
    var s := f[AY] + f[BY] + f[CY] + f[DY];
    var h := TruncDiv(s, 2);
    assert Abs(h) * 2 <= Abs(s);
  }

  /** With every channel within b (4b fitting 16 bits), no store wraps and the
      stored fields are the reference combination. */
  lemma {:induction false} StoredExact(f: seq<int>, threshold: int, b: int)
    requires |f| == 8 && 0 <= b && 4 * b <= Int16Max && ChannelsWithin(f, b)
    ensures Stored(f, threshold) == Combine(f, threshold)
    ensures MotionWithin(Combine(f, threshold), 4 * b)
  {
    HalfSumWithin(f, b);
  }

  /** Negating a value other than -32768 in an `int16_t` does not wrap. */
  lemma InvertStoredExact(v: int, flag: bool)
    requires -Int16Max <= v <= Int16Max
    ensures InvertStored(v, flag) == Negate(v, flag)
  {
  }

  /** With every channel within b (4b fitting 16 bits), no `int16_t` store
      wraps: the firmware computes exactly the reference combination followed
      by the reference inversion, and every axis stays within 4b. */
  lemma {:induction false} CalcRotTransExact(f: seq<int>, threshold: int, inv: Inversion, b: int)
    requires |f| == 8 && 0 <= b && 4 * b <= Int16Max && ChannelsWithin(f, b)
    ensures CalcRotTrans(f, threshold, inv) == Invert(Combine(f, threshold), inv)
    ensures MotionWithin(CalcRotTrans(f, threshold, inv), 4 * b)
  {
    StoredExact(f, threshold, b);
    var m := Combine(f, threshold);
    InvertStoredExact(m.transX, inv.invX);
    InvertStoredExact(m.transY, inv.invY);
    InvertStoredExact(m.transZ, inv.invZ);
    InvertStoredExact(m.rotX, inv.invRX);
    InvertStoredExact(m.rotY, inv.invRY);
    InvertStoredExact(m.rotZ, inv.invRZ);
  }

  /** Translation along Z is non-zero only when all four X channels exceed
      the threshold, and when they do the pan pair is forced to 0. */
  lemma TransZExclusive(f: seq<int>, threshold: int, inv: Inversion)
    requires |f| == 8
    ensures CalcRotTrans(f, threshold, inv).transZ != 0 ==> TransZFires(f, threshold)
    ensures TransZFires(f, threshold) ==>
              CalcRotTrans(f, threshold, inv).transX == 0 && CalcRotTrans(f, threshold, inv).transY == 0
  {
  }

  /** Rotation about Z is non-zero only when all four Y channels exceed the
      threshold, and when they do the tilt pair is forced to 0. */
  lemma RotZExclusive(f: seq<int>, threshold: int, inv: Inversion)
    requires |f| == 8
    ensures CalcRotTrans(f, threshold, inv).rotZ != 0 ==> RotZFires(f, threshold)
    ensures RotZFires(f, threshold) ==>
              CalcRotTrans(f, threshold, inv).rotX == 0 && CalcRotTrans(f, threshold, inv).rotY == 0
  {
  }

  /** If any one of the four X channels is at or below the threshold in
      magnitude (in particular, a filtered value of exactly the threshold),
      translation Z stays 0 and the pan pair keeps its base values. */
  lemma {:induction false} ThreeOfFourDoesNotFire(f: seq<int>, threshold: int, b: int, k: int)
    requires |f| == 8 && 0 <= b && 4 * b <= Int16Max && ChannelsWithin(f, b)
    requires k in {AX, BX, CX, DX} && Abs(f[k]) <= threshold
    ensures CalcRotTrans(f, threshold, NoInversion).transZ == 0
    ensures CalcRotTrans(f, threshold, NoInversion).transX == f[CY] - f[AY]
    ensures CalcRotTrans(f, threshold, NoInversion).transY == f[DY] - f[BY]
  {
    CalcRotTransExact(f, threshold, NoInversion, b);
  }

  /** When neither Z gesture fires, the four base combinations hold; note the
      pan X axis is Cy - Ay. */
  lemma {:induction false} BaseCombinations(f: seq<int>, threshold: int, b: int)
    requires |f| == 8 && 0 <= b && 4 * b <= Int16Max && ChannelsWithin(f, b)
    requires !TransZFires(f, threshold) && !RotZFires(f, threshold)
    ensures CalcRotTrans(f, threshold, NoInversion) ==
              Motion(f[CY] - f[AY], f[DY] - f[BY], 0, f[CX] - f[AX], f[BX] - f[DX], 0)
  {
    CalcRotTransExact(f, threshold, NoInversion, b);
  }

  /** When the X group fires, translation Z is minus the sum of the X channels. */
  lemma {:induction false} TransZIsNegatedSum(f: seq<int>, threshold: int, b: int)
    requires |f| == 8 && 0 <= b && 4 * b <= Int16Max && ChannelsWithin(f, b)
    requires TransZFires(f, threshold)
    ensures CalcRotTrans(f, threshold, NoInversion).transZ == -(f[AX] + f[BX] + f[CX] + f[DX])
  {
    CalcRotTransExact(f, threshold, NoInversion, b);
  }

  /** The halving of rotation Z truncates toward zero as in C: Y channels
      -6, -6, -6, 11 sum to -7 and give -3, where floor division would give -4. */
  lemma RotZTruncatesTowardZero()
    ensures CalcRotTrans([0, -6, 0, -6, 0, -6, 0, 11], 5, NoInversion).rotZ == -3
  {
  }

  /** Inversion negates exactly the flagged axes of the uninverted output. */
  lemma {:induction false} InversionNegatesFlagged(f: seq<int>, threshold: int, inv: Inversion, b: int)
    requires |f| == 8 && 0 <= b && 4 * b <= Int16Max && ChannelsWithin(f, b)
    ensures CalcRotTrans(f, threshold, inv) == Invert(CalcRotTrans(f, threshold, NoInversion), inv)
  {
    CalcRotTransExact(f, threshold, inv, b);
    CalcRotTransExact(f, threshold, NoInversion, b);
  }

  /** With no flag set, inversion is the identity. */
  lemma NoInversionIsIdentity(m: Motion)
    ensures Invert(m, NoInversion) == m
  {
  }

  /** A knob set at rest produces no motion, whatever the threshold and flags. */
  lemma AllZeroInputGivesZero(threshold: int, inv: Inversion)
    ensures CalcRotTrans([0, 0, 0, 0, 0, 0, 0, 0], threshold, inv) == Motion(0, 0, 0, 0, 0, 0)
  {
  }
}

=== FILE: normalizer.dfy ===
/** interpolateTo1024: each raw reading minus its centre point, scaled
    separately below and above the centre into [-scale, scale] and rounded
    to the nearest integer. */
module Normalizer {
  import opened CArith
  import opened Results
  import opened Sampler

  /** The positive side divides by FullScale - c: one more than RawMax. */
  const FullScale: int := 8192

  /** The distance the quotient is scaled against: the centre itself below
      the centre, the rest of the range at or above it. */
  function Denominator(r: int, c: int): int {
    if r - c < 0 then c else FullScale - c
  }

  /** One channel: round(d * scale / den) with d = r - c. A zero denominator
      is a fault (the quotient would be infinite or not a number). */
  function InterpolateChannel(r: int, c: int, scale: int): (v: Result<int>)
    ensures v.Err? ==> v.fault == DivisionByZero
    ensures v.Ok? ==> Denominator(r, c) != 0
  {
    var den := Denominator(r, c);
    if den == 0 then Err(DivisionByZero) else Ok(RoundDiv((r - c) * scale, den))
  }

  /** The whole vector: a fault on any channel is a fault of the stage. */
  function InterpolateTo1024(raw: seq<int>, centre: seq<int>, scale: int): (res: Result<seq<int>>)
    requires |raw| == ChannelCount && |centre| == ChannelCount
    ensures res.Ok? <==> forall i :: 0 <= i < ChannelCount ==> InterpolateChannel(raw[i], centre[i], scale).Ok?
    ensures res.Ok? ==> |res.value| == ChannelCount
    ensures res.Ok? ==> forall i :: 0 <= i < ChannelCount ==>
              InterpolateChannel(raw[i], centre[i], scale) == Ok(res.value[i])
    ensures res.Err? ==> res.fault == DivisionByZero
  {
    if forall i :: 0 <= i < ChannelCount ==> Denominator(raw[i], centre[i]) != 0 then
      Ok(seq(ChannelCount, i requires 0 <= i < ChannelCount => RoundDiv((raw[i] - centre[i]) * scale, Denominator(raw[i], centre[i]))))
    else
      Err(DivisionByZero)
  }

  /** With reading and centre both from the ADC, no denominator is zero: the
      negative side needs r < c, so c >= 1, and FullScale - c >= 1. The value
      lies in [-scale, scale], is 0 at the centre and otherwise has the
      sign of r - c (or is 0 when the step is below half a unit). */
  lemma {:induction false} InterpolateChannelInRange(r: int, c: int, scale: int)
    requires InAdcRange(r) && InAdcRange(c) && scale > 0
    ensures InterpolateChannel(r, c, scale).Ok?
    ensures -scale <= InterpolateChannel(r, c, scale).value <= scale
    ensures r == c ==> InterpolateChannel(r, c, scale).value == 0
    ensures r > c ==> InterpolateChannel(r, c, scale).value >= 0
    ensures r < c ==> InterpolateChannel(r, c, scale).value <= 0
  {
    var d := r - c;
    var den := Denominator(r, c);
    assert den >= 1;
    RoundDivExact(0, den);
    if d < 0 {
      MulMonotone(-d, c, scale);
      MulMonotone(d, 0, scale);
      RoundDivBounded(d * scale, den, scale);
      RoundDivMonotone(d * scale, 0 * den, den);
    } else {
      MulMonotone(d, den, scale);
      MulMonotone(0, d, scale);
      RoundDivBounded(d * scale, den, scale);
      RoundDivMonotone(0 * den, d * scale, den);
    }
  }

  /** For a fixed centre, the normalised value never decreases as the reading grows. */
  lemma {:induction false} InterpolateMonotone(r1: int, r2: int, c: int, scale: int)
    requires InAdcRange(r1) && InAdcRange(r2) && InAdcRange(c) && scale > 0 && r1 <= r2
    ensures InterpolateChannel(r1, c, scale).Ok? && InterpolateChannel(r2, c, scale).Ok?
    ensures InterpolateChannel(r1, c, scale).value <= InterpolateChannel(r2, c, scale).value
  {
    InterpolateChannelInRange(r1, c, scale);
    InterpolateChannelInRange(r2, c, scale);
    if (r1 < c) == (r2 < c) {
      MulMonotone(r1 - c, r2 - c, scale);
      RoundDivMonotone((r1 - c) * scale, (r2 - c) * scale, Denominator(r1, c));
    }
  }

  /** The lowest reading maps to exactly -scale whatever the centre. */
  lemma {:induction false} LowestReadingIsFullScale(c: int, scale: int)
    requires InAdcRange(c) && c >= 1 && scale > 0
    ensures InterpolateChannel(0, c, scale) == Ok(-scale)
  {
    assert (0 - c) * scale == -scale * c;
    RoundDivExact(-scale, c);
  }

  /** Because the positive side divides by 8192 - c while readings stop at
      8191, the highest reading can fall short of +scale: centre 8000 at
      scale 250 gives round(191 * 250 / 192) = 249. */
  lemma HighestReadingCanFallShort()
    ensures InterpolateChannel(RawMax, 8000, 250) == Ok(249)
  {
    HalfUpBracket(191 * 250, 192);
  }

  /** A step too small to reach half a unit rounds to 0, so the sign of the
      normalised value only weakly follows r - c: one step above centre 0 is
      round(250 / 8192) = 0. */
  lemma SmallStepRoundsToZero()
    ensures InterpolateChannel(1, 0, 250) == Ok(0)
  {
    HalfUpBracket(250, 8192);
  }

  /** Every channel of an in-range reading and calibration normalises without
      fault into [-scale, scale], and a reading equal to its centre gives 0. */
  lemma InterpolateAllInRange(raw: seq<int>, centre: seq<int>, scale: int)
    requires |raw| == ChannelCount && |centre| == ChannelCount && scale > 0
    requires forall i :: 0 <= i < ChannelCount ==> InAdcRange(raw[i]) && InAdcRange(centre[i])
    ensures InterpolateTo1024(raw, centre, scale).Ok?
    ensures forall i :: 0 <= i < ChannelCount ==>
              -scale <= InterpolateTo1024(raw, centre, scale).value[i] <= scale
    ensures forall i :: 0 <= i < ChannelCount && raw[i] == centre[i] ==>
              InterpolateTo1024(raw, centre, scale).value[i] == 0
  {
    forall i | 0 <= i < ChannelCount
      ensures InterpolateChannel(raw[i], centre[i], scale).Ok?
      ensures -scale <= InterpolateChannel(raw[i], centre[i], scale).value <= scale
      ensures raw[i] == centre[i] ==> InterpolateChannel(raw[i], centre[i], scale).value == 0
    {
      InterpolateChannelInRange(raw[i], centre[i], scale);
    }
  }
}

=== FILE: report.dfy ===
/** sendHidReport: the six motion values packed little-endian, 16 bits each,
    into the report layout of the configured device (space_mouse_hid/main/sm_hid.cpp). */
module ReportEncoder {
  import opened CArith
  import opened MotionMapper

  type Byte = x: int | 0 <= x < 256

  /** One call of the transport's report function: report id and payload. */
  datatype HidReport = HidReport(id: int, data: seq<Byte>)

  datatype SmDevice = SpaceMousePro | SpaceMouseWireless | SpaceMouseEnterprise

  /** SM_DEVICE is defined twice; the later definition, Enterprise, is the one in force. */
  const ActiveDevice: SmDevice := SpaceMouseEnterprise

  /** DEVICE_TYPE: 66 selects two 6-byte reports, anything else one 12-byte report. */
  function DeviceType(d: SmDevice): (t: int)
    ensures t == 66 || t == 12
    ensures t == 66 <==> !d.SpaceMouseEnterprise?
  {
    if d == SpaceMousePro || d == SpaceMouseWireless then 66 else 12
  }

  /** The device in force selects the single combined report. */
  lemma ActiveDeviceIsCombined()
    ensures DeviceType(ActiveDevice) == 12
  {
  }

  /** `static_cast<uint8_t>(v & 0xFF)`. */
  function LowByte(v: int): Byte {
    v % 256
  }

  /** `static_cast<uint8_t>(v >> 8)`: an arithmetic shift, which floors, then
      the low eight bits. */
  function HighByte(v: int): Byte {
    (v / 256) % 256
  }

  function Le16(v: int): (bytes: seq<Byte>)
    ensures |bytes| == 2
  {
    [LowByte(v), HighByte(v)]
  }

  /** How the host reads a field: low byte first, as a two's-complement
      16-bit value (the descriptor's logical range is -32768..32767). */
  function Decode16(lo: Byte, hi: Byte): (v: int)
    ensures InInt16(v)
  {
    var u := hi * 256 + lo;
    if u >= 32768 then u - 65536 else u
  }

  /** The k-th 16-bit field of a payload. */
  function Field(data: seq<Byte>, k: nat): int
    requires 2 * k + 1 < |data|
  {
    Decode16(data[2 * k], data[2 * k + 1])
  }

  /** A quotient and remainder that fit the divisor are the ones `/` and `%` give. */
  lemma DivModUnique(a: int, b: int, q: int, r: int)
    requires b > 0 && 0 <= r < b && a == q * b + r
    ensures a / b == q && a % b == r
  {
    DivOfMultiple(q, b, r);
  }

  /** Decoding the two bytes written for v gives v reduced into 16 bits; in
      particular every `int16_t` value survives the trip unchanged. */
  lemma {:induction false} DecodeLe16(v: int)
    ensures Decode16(LowByte(v), HighByte(v)) == Wrap16(v)
    ensures InInt16(v) ==> Decode16(LowByte(v), HighByte(v)) == v
  {
    var lo := v % 256;
    var q := v / 256;
    var hi := q % 256;
    var t := q / 256;
    assert v == 256 * q + lo;
    assert q == 256 * t + hi;
    var u := 256 * hi + lo;
    assert v + 32768 == 65536 * t + u + 32768;
    if u < 32768 {
      DivModUnique(v + 32768, 65536, t, u + 32768);
    } else {
      DivModUnique(v + 32768, 65536, t + 1, u - 32768);
    }
  }

  /** Every pair of bytes is what the encoder writes for the value they decode to. */
  lemma {:induction false} Le16Decode(lo: Byte, hi: Byte)
    ensures Le16(Decode16(lo, hi)) == [lo, hi]
  {
    var u := hi * 256 + lo;
    var v := Decode16(lo, hi);
    if u < 32768 {
      DivModUnique(v, 256, hi, lo);
      DivModUnique(hi, 256, 0, hi);
    } else {
      DivModUnique(v, 256, hi - 256, lo);
      DivModUnique(hi - 256, 256, -1, hi);
    }
  }

  /** sendHidReport(rx, ry, rz, x, y, z): the split layout sends translation as
      report 1 and rotation as report 2, six bytes each; the combined layout
      sends one 12-byte report 1, translation first. */
  function SendHidReport(device: SmDevice, rx: int, ry: int, rz: int, x: int, y: int, z: int): (reports: seq<HidReport>)
    ensures DeviceType(device) == 66 ==>
              |reports| == 2 && reports[0].id == 1 && reports[1].id == 2 &&
              |reports[0].data| == 6 && |reports[1].data| == 6 &&
              Field(reports[0].data, 0) == Wrap16(x) && Field(reports[0].data, 1) == Wrap16(y) &&
              Field(reports[0].data, 2) == Wrap16(z) &&
              Field(reports[1].data, 0) == Wrap16(rx) && Field(reports[1].data, 1) == Wrap16(ry) &&
              Field(reports[1].data, 2) == Wrap16(rz)
    ensures DeviceType(device) != 66 ==>
              |reports| == 1 && reports[0].id == 1 && |reports[0].data| == 12 &&
              Field(reports[0].data, 0) == Wrap16(x) && Field(reports[0].data, 1) == Wrap16(y) &&
              Field(reports[0].data, 2) == Wrap16(z) && Field(reports[0].data, 3) == Wrap16(rx) &&
              Field(reports[0].data, 4) == Wrap16(ry) && Field(reports[0].data, 5) == Wrap16(rz)
  {
    DecodeLe16(x); DecodeLe16(y); DecodeLe16(z);
    DecodeLe16(rx); DecodeLe16(ry); DecodeLe16(rz);
    if DeviceType(device) == 66 then
      [HidReport(1, Le16(x) + Le16(y) + Le16(z)), HidReport(2, Le16(rx) + Le16(ry) + Le16(rz))]
    else
      [HidReport(1, Le16(x) + Le16(y) + Le16(z) + Le16(rx) + Le16(ry) + Le16(rz))]
  }

  /** The call site passes rotations first and translations last, so the
      translation lands in the first six bytes of the report. */
  function SendMotion(device: SmDevice, m: Motion): (reports: seq<HidReport>)
    ensures DeviceType(device) != 66 ==>
              |reports| == 1 && reports[0].id == 1 && |reports[0].data| == 12 &&
              Field(reports[0].data, 0) == Wrap16(m.transX) && Field(reports[0].data, 1) == Wrap16(m.transY) &&
              Field(reports[0].data, 2) == Wrap16(m.transZ) && Field(reports[0].data, 3) == Wrap16(m.rotX) &&
              Field(reports[0].data, 4) == Wrap16(m.rotY) && Field(reports[0].data, 5) == Wrap16(m.rotZ)
    ensures DeviceType(device) == 66 ==>
              |reports| == 2 && reports[0].id == 1 && reports[1].id == 2 &&
              |reports[0].data| == 6 && |reports[1].data| == 6 &&
              Field(reports[0].data, 0) == Wrap16(m.transX) && Field(reports[0].data, 1) == Wrap16(m.transY) &&
              Field(reports[0].data, 2) == Wrap16(m.transZ) &&
              Field(reports[1].data, 0) == Wrap16(m.rotX) && Field(reports[1].data, 1) == Wrap16(m.rotY) &&
              Field(reports[1].data, 2) == Wrap16(m.rotZ)
  {
    SendHidReport(device, m.rotX, m.rotY, m.rotZ, m.transX, m.transY, m.transZ)
  }

  /** The host's view of a combined 12-byte report. */
  function DecodeCombined(data: seq<Byte>): Motion
    requires |data| == 12
  {
    Motion(Field(data, 0), Field(data, 1), Field(data, 2), Field(data, 3), Field(data, 4), Field(data, 5))
  }

  /** The active build sends one combined report per cycle, and the host
      decodes exactly the motion that was computed. */
  lemma ActiveReportRoundTrip(m: Motion)
    requires MotionInInt16(m)
    ensures |SendMotion(ActiveDevice, m)| == 1
    ensures SendMotion(ActiveDevice, m)[0].id == 1 && |SendMotion(ActiveDevice, m)[0].data| == 12
    ensures DecodeCombined(SendMotion(ActiveDevice, m)[0].data) == m
  {
  }

  /** The split layout also round-trips: report 1 carries the translation and
      report 2 the rotation. */
  lemma SplitReportRoundTrip(m: Motion)
    requires MotionInInt16(m)
    ensures var r := SendMotion(SpaceMousePro, m);
            |r| == 2 && r[0].id == 1 && r[1].id == 2 &&
            [Field(r[0].data, 0), Field(r[0].data, 1), Field(r[0].data, 2)] == [m.transX, m.transY, m.transZ] &&
            [Field(r[1].data, 0), Field(r[1].data, 1), Field(r[1].data, 2)] == [m.rotX, m.rotY, m.rotZ]
  {
  }
}

=== FILE: results.dfy ===
/** Outcomes of a pipeline stage: a value, or the fault that ends the modelled run. */
module Results {

  /** `AdcReadFault`: a one-shot ADC read returned an error and the error check
      aborts the program. `DivisionByZero`: the normaliser's floating-point
      quotient has a zero denominator, after which converting `round`'s result
      to `int` is undefined behaviour. */
  datatype Fault = AdcReadFault | DivisionByZero

  datatype Result<+T> = Ok(value: T) | Err(fault: Fault)
}

=== FILE: sampler.dfy ===
/** Acquisition: each channel's raw value is the truncated mean of nSamples
    one-shot ADC reads (space_mouse_hid/main/adcdata.cpp, readAllFromJoystick). */
module Sampler {
  import opened CArith
  import opened Results

  /** Pins per ADC unit; ADC1 feeds channel slots 0..3, ADC2 slots 4..7. */
  const PinCount: int := 4
  const ChannelCount: int := 8
  /** Largest value of the 13-bit one-shot ADC. */
  const RawMax: int := 8191

  /** One one-shot read: the converted value, or the error the error check aborts on. */
  datatype AdcRead = Sample(value: int) | ReadError

  /** One pass of the inner read loop: for each pin index i, the read of ADC1
      channel i and the read of ADC2 channel i. */
  datatype Sweep = Sweep(adc1: seq<AdcRead>, adc2: seq<AdcRead>)

  predicate WellFormed(s: Sweep) {
    |s.adc1| == PinCount && |s.adc2| == PinCount
  }

  predicate AllWellFormed(sweeps: seq<Sweep>) {
    forall k :: 0 <= k < |sweeps| ==> WellFormed(sweeps[k])
  }

  /** The read that lands in channel slot ch. */
  function SlotRead(s: Sweep, ch: int): AdcRead
    requires WellFormed(s) && 0 <= ch < ChannelCount
  {
    if ch < PinCount then s.adc1[ch] else s.adc2[ch - PinCount]
  }

  function ReadValue(a: AdcRead): int {
    match a
    case Sample(v) => v
    case ReadError => 0
  }

  /** A value the 13-bit converter can produce. */
  predicate InAdcRange(x: int) {
    0 <= x <= RawMax
  }

  predicate AllInAdcRange(xs: seq<int>) {
    forall i :: 0 <= i < |xs| ==> InAdcRange(xs[i])
  }

  predicate ReadInRange(a: AdcRead) {
    a.Sample? ==> InAdcRange(a.value)
  }

  predicate ReadsInRange(sweeps: seq<Sweep>)
    requires AllWellFormed(sweeps)
  {
    forall k, ch :: 0 <= k < |sweeps| && 0 <= ch < ChannelCount ==> ReadInRange(SlotRead(sweeps[k], ch))
  }

  /** Some pin index of the sweep read an error on ADC1 or on ADC2. */
  predicate SweepFaulty(s: Sweep)
    requires WellFormed(s)
  {
    exists p :: 0 <= p < PinCount && (s.adc1[p].ReadError? || s.adc2[p].ReadError?)
  }

  predicate AnyFault(sweeps: seq<Sweep>)
    requires AllWellFormed(sweeps)
  {
    exists k :: 0 <= k < |sweeps| && SweepFaulty(sweeps[k])
  }

  /** Sum of the reads of channel ch over all sweeps. */
  function ChannelSum(sweeps: seq<Sweep>, ch: int): int
    requires AllWellFormed(sweeps) && 0 <= ch < ChannelCount
    decreases |sweeps|
  {
    if |sweeps| == 0 then 0
    else ChannelSum(sweeps[..|sweeps| - 1], ch) + ReadValue(SlotRead(sweeps[|sweeps| - 1], ch))
  }

  /** With every read in [0, RawMax], a channel's total over n sweeps is in [0, RawMax * n]. */
  lemma {:induction false} ChannelSumBounds(sweeps: seq<Sweep>, ch: int)
    requires AllWellFormed(sweeps) && 0 <= ch < ChannelCount && ReadsInRange(sweeps)
    ensures 0 <= ChannelSum(sweeps, ch) <= RawMax * |sweeps|
    decreases |sweeps|
  {
    if |sweeps| > 0 {
      var init := sweeps[..|sweeps| - 1];
      assert ReadsInRange(init) by {
        forall k, c | 0 <= k < |init| && 0 <= c < ChannelCount
          ensures ReadInRange(SlotRead(init[k], c))
        {
          assert init[k] == sweeps[k];
        }
      }
      ChannelSumBounds(init, ch);
      assert ReadInRange(SlotRead(sweeps[|sweeps| - 1], ch));
    }
  }

  /** The 32-bit accumulator of the read loop cannot overflow for up to 2^18
      samples of in-range reads (the firmware takes 5, 10 or 100). */
  lemma AccumulatorFitsInt32(sweeps: seq<Sweep>, ch: int)
    requires AllWellFormed(sweeps) && 0 <= ch < ChannelCount && ReadsInRange(sweeps)
    requires |sweeps| <= 262144
    ensures 0 <= ChannelSum(sweeps, ch) <= Int32Max
  {
    ChannelSumBounds(sweeps, ch);
    MulMonotone(|sweeps|, 262144, RawMax);
  }

  /** Reference for acquisition: abort if any read failed, otherwise each
      slot's truncated mean over the sweeps. */
  function Acquire(sweeps: seq<Sweep>): (r: Result<seq<int>>)
    requires |sweeps| >= 1 && AllWellFormed(sweeps)
    ensures r.Ok? ==> |r.value| == ChannelCount
  {
    if AnyFault(sweeps) then Err(AdcReadFault)
    else Ok(seq(ChannelCount, ch requires 0 <= ch < ChannelCount => TruncDiv(ChannelSum(sweeps, ch), |sweeps|)))
  }

  /** Averaging in-range reads gives in-range raw values, each the truncated
      mean of its slot. */
  lemma AcquireInRange(sweeps: seq<Sweep>)
    requires |sweeps| >= 1 && AllWellFormed(sweeps) && ReadsInRange(sweeps) && !AnyFault(sweeps)
    ensures Acquire(sweeps).Ok?
    ensures forall ch :: 0 <= ch < ChannelCount ==> 0 <= Acquire(sweeps).value[ch] <= RawMax
  {
    forall ch | 0 <= ch < ChannelCount
      ensures 0 <= TruncDiv(ChannelSum(sweeps, ch), |sweeps|) <= RawMax
    {
      ChannelSumBounds(sweeps, ch);
      MeanBounded(ChannelSum(sweeps, ch), |sweeps|, RawMax);
    }
  }

  /** One pass of the inner loop: both reads of each pin index are added to
      their slots, ADC1's read to slot i and ADC2's to slot i + 4. */
  method AccumulateSweep(acc: seq<int>, sw: Sweep) returns (r: Result<seq<int>>)
    requires |acc| == ChannelCount && WellFormed(sw)
    ensures r.Err? <==> SweepFaulty(sw)
    ensures r.Err? ==> r.fault == AdcReadFault
    ensures r.Ok? ==> |r.value| == ChannelCount
    ensures r.Ok? ==> forall ch :: 0 <= ch < ChannelCount ==> r.value[ch] == acc[ch] + ReadValue(SlotRead(sw, ch))
  {
    var lRaw := acc;
    var i := 0;
    while i < PinCount
      invariant 0 <= i <= PinCount
      invariant |lRaw| == ChannelCount
      invariant forall p :: 0 <= p < PinCount ==>
                  lRaw[p] == acc[p] + (if p < i then ReadValue(sw.adc1[p]) else 0)
      invariant forall ch :: PinCount <= ch < ChannelCount ==>
                  lRaw[ch] == acc[ch] + (if ch - PinCount < i then ReadValue(sw.adc2[ch - PinCount]) else 0)
      invariant forall p :: 0 <= p < i ==> sw.adc1[p].Sample? && sw.adc2[p].Sample?
    {
      var v1 := sw.adc1[i];
      var v2 := sw.adc2[i];
      if v1.ReadError? || v2.ReadError? {
        return Err(AdcReadFault);
      }
      lRaw := lRaw[i := lRaw[i] + v1.value][i + PinCount := lRaw[i + PinCount] + v2.value];
      i := i + 1;
    }
    r := Ok(lRaw);
  }

  lemma ChannelSumSnoc(sweeps: seq<Sweep>, j: int, ch: int)
    requires AllWellFormed(sweeps) && 0 <= j < |sweeps| && 0 <= ch < ChannelCount
    ensures ChannelSum(sweeps[..j + 1], ch) == ChannelSum(sweeps[..j], ch) + ReadValue(SlotRead(sweeps[j], ch))
  {
    assert sweeps[..j + 1][..j] == sweeps[..j];
  }

  /** readAllFromJoystick(nSamples) with nSamples == |sweeps|: every sweep
      reads all eight channels, the totals are accumulated per slot, and each
      slot receives its total divided by nSamples, truncated as C does. A
      failed read aborts. */
  method ReadAllFromJoystick(sweeps: seq<Sweep>) returns (r: Result<seq<int>>)
    requires |sweeps| >= 1
    requires AllWellFormed(sweeps)
    ensures r.Err? <==> AnyFault(sweeps)
    ensures r.Err? ==> r.fault == AdcReadFault
    ensures r.Ok? ==> |r.value| == ChannelCount
    ensures r.Ok? ==> forall ch :: 0 <= ch < ChannelCount ==>
              r.value[ch] == TruncDiv(ChannelSum(sweeps, ch), |sweeps|)
    ensures r == Acquire(sweeps)
    ensures r.Ok? && ReadsInRange(sweeps) ==>
              forall ch :: 0 <= ch < ChannelCount ==> 0 <= r.value[ch] <= RawMax
  {
    var lRaw := [0, 0, 0, 0, 0, 0, 0, 0];
    var j := 0;
    while j < |sweeps|
      invariant 0 <= j <= |sweeps|
      invariant |lRaw| == ChannelCount
      invariant forall ch :: 0 <= ch < ChannelCount ==> lRaw[ch] == ChannelSum(sweeps[..j], ch)
      invariant forall k :: 0 <= k < j ==> !SweepFaulty(sweeps[k])
    {
      var next := AccumulateSweep(lRaw, sweeps[j]);
      if next.Err? {
        return next;
      }
      forall ch | 0 <= ch < ChannelCount
        ensures next.value[ch] == ChannelSum(sweeps[..j + 1], ch)
      {
        ChannelSumSnoc(sweeps, j, ch);
      }
      lRaw := next.value;
      j := j + 1;
    }
    assert sweeps[..j] == sweeps;
    var avg := seq(ChannelCount, ch requires 0 <= ch < ChannelCount => TruncDiv(lRaw[ch], |sweeps|));
    if ReadsInRange(sweeps) {
      forall ch | 0 <= ch < ChannelCount
        ensures 0 <= avg[ch] <= RawMax
      {
        ChannelSumBounds(sweeps, ch);
        MeanBounded(lRaw[ch], |sweeps|, RawMax);
      }
    }
    assert !AnyFault(sweeps);
    assert avg == Acquire(sweeps).value;
    r := Ok(avg);
  }
}
